=== FILE: README.md ===
# Entity store of the messaging backend, in Dafny

This project models the database layer of a small chat backend: the
create/read/update/delete operations over five tables. The tables are
profiles, group chats, group chat memberships, group chat messages and
private messages.

Each operation first looks up the rows it depends on (its *guards*), then
issues one insert, update or filtered delete. The model is sequential and
functional:

- **Store.** A `Store` holds five `Table`s. A table maps an AUTO_INCREMENT
  key to a row and keeps the counter the next insert receives. The counter
  starts at 1 and is never rewound.
- **Operations.** Each operation is a pure function from a store and its
  arguments to a `Reply`: an `Outcome` together with the store afterwards.
  An outcome is `Ok(value)`, `Err(error)` or `Abort`. `Abort` stands for a
  panic on `unwrap`. After an `Abort`, the reply carries every write
  committed before the panic.
- **Store rejections.** Every write is offered to a `Backend`, a predicate
  that may reject it. Rejection stands for what the relational store
  enforces on its own, such as foreign keys, the unique username or NOT NULL
  columns. A rejected write changes nothing. `Healthy(db)` means the backend
  accepts everything. Most contracts say what happens under a healthy
  backend and what an arbitrary backend can do.
- **Time.** The current time is a parameter `now`.
- **Query order.** `.all()` listings are modelled in ascending key order.
  `.one()` without an ORDER BY is modelled as the lowest matching key.
  `Tables.Lists` pins a listing down uniquely (`Tables.ListsUnique`).
- **The invariant.** `EntityStore.Inv` is preserved by every operation. It
  says:
  - every key lies below its table's counter;
  - every membership and every group message names profile and chat ids
    that were handed out.

The operations live in `ProfileOperations`, `GroupChatOperations`,
`GroupChatMemberOperations`, `GroupChatMessageOperations` and
`PrivateMessageOperations`. The existence guards live in `Guards`, and the
username rule in `Usernames`. Properties that relate several operations
are in `Properties`.

Connection failures are left out, so a well-formed read always succeeds.
So the profile lookup, which unwraps the optional row it reads, either
returns the row or panics. It never returns an error. A statement that
names a column outside its own table is refused whatever the `Backend`
says: a read built that way (`FindFirstMessage`) returns a store error,
and a delete built that way (`DeleteMatching`) fails without deleting.

Several behaviours of the code are not what one might expect, and the
model follows the code:

- **Absent profiles panic.** One might expect the profile guards to return
  a "profile not found" error. The code unwraps the row, so an absent id
  is a panic. As a consequence, `insert_group_chat` never reaches its
  "skip this id" branch: an absent member id panics after the chat has
  been created.
- **Usernames are measured in bytes.** One might expect the length limit
  to count characters. The code counts UTF-8 bytes.
- **`update_profile` overwrites every column.** One might expect it to
  change only the supplied fields. The code writes all columns, and it
  re-stamps `join_datetime` with the current time.
- **Deleting a missing profile is not an error.** One might expect a
  "not found" error. The code succeeds with a count of zero, so deleting
  a profile twice also succeeds.
- **`delete_single_membership` reports a chat error.** When no membership
  matches, one might expect a membership error. The code returns the
  "group chat not found" error.

## Model

| member | source | states |
|---|---|---|
| Guards.GetProfileById | src/database/src/profile_operations.rs:89-107 | Returns the stored row exactly when the id is present. An absent id is a panic, never an error. |
| Guards.CheckProfileExists | src/database/src/profile_operations.rs:150-161 | Has exactly the outcome of the profile lookup, so it never reports an error either. |
| Guards.GetGroupChatById | src/database/src/group_chat_operations.rs:72-84 | Ok with the stored row exactly when the chat is present. Otherwise it is the chat-not-found error, never a panic. |
| Guards.CheckGroupChatExists | src/database/src/group_chat_operations.rs:105-118 | Has exactly the outcome of the chat lookup and never panics. |
| Usernames.IsUsernameValid | src/database/src/profile_operations.rs:163-165 | The rule: no character with the Unicode White_Space property, and a UTF-8 length below 33 bytes. So an accepted username has no whitespace and at most 32 characters, and every whitespace-free username of at most 8 characters (at most 32 bytes) is accepted. |
| Usernames.AsciiUsernameRule | src/database/src/profile_operations.rs:163-165 | For ASCII input, the rule is exactly: no whitespace, and fewer than 33 characters. |
| Usernames.MultibyteUsernameRejected | src/database/src/profile_operations.rs:163-165 | 17 copies of U+00E9 are refused. The limit counts bytes, not characters. |
| Usernames.Utf8LengthBounds | src/database/src/profile_operations.rs:164 | The byte length of a string lies between its character count and four times that. |
| ProfileOperations.InsertProfile | src/database/src/profile_operations.rs:7-42 | The username error is returned exactly when the username breaks the rule, and it leaves the store unchanged. The only other error is a store error, which also changes nothing. On success, the new row holds the given fields, the default picture and `now`, under the table's next key, and nothing else changes. With a valid username and a healthy store, the insert succeeds. |
| ProfileOperations.UpdateProfile | src/database/src/profile_operations.rs:44-87 | The reply is a panic exactly when the id is absent, and then nothing changes. On success, the key is kept, every other column is overwritten with the supplied values (displayname and picture wrapped), and the join time becomes `now`. The only possible error is a store error. |
| ProfileOperations.GetProfileByUsername | src/database/src/profile_operations.rs:109-128 | Ok exactly when some profile has that username. The result is a stored profile with that username, under the lowest such key. An absent username panics. |
| ProfileOperations.DeleteProfileById | src/database/src/profile_operations.rs:130-148 | Removes that profile row only and reports 1, or 0 when the id is absent. Memberships and messages of the profile stay. |
| GroupChatOperations.AttachMembers | src/database/src/group_chat_operations.rs:28-47 | Only memberships change. Success means one membership per listed id. Any absent id leads to a panic. Every id present plus a healthy store gives success. Never returns an error. |
| GroupChatOperations.AttachMembersWritesBatch | src/database/src/group_chat_operations.rs:30-47 | The memberships written are (ids[i], chat) under consecutive keys, for the prefix of the list processed before the loop stopped. |
| GroupChatOperations.BatchAt | src/database/src/group_chat_operations.rs:30-47 | The batch occupies exactly the keys first .. first + n - 1. Key first + i holds (ids[i], chat). |
| GroupChatOperations.InsertGroupChat | src/database/src/group_chat_operations.rs:10-50 | An empty list gives the no-members error and creates nothing. On success, exactly one chat exists created at `now` without a picture, and only the chat and membership tables changed. An absent member id panics. When the store rejects the chat row, the panic leaves the store unchanged; a panic after the chat row is written leaves exactly that new chat in the chat table. |
| GroupChatOperations.InsertGroupChatMemberships | src/database/src/group_chat_operations.rs:20-47 | On success, the listed ids in order become memberships of the new chat, repeats included. After a panic in the loop, the chat exists with a strict prefix of them. |
| GroupChatOperations.UpdateGroupChat | src/database/src/group_chat_operations.rs:52-70 | The chat error is returned exactly when the chat is absent, and then nothing changes. For a present chat the only error is a store error. Otherwise the picture is set, and the key and creation date are kept. |
| GroupChatOperations.DeleteGroupChatById | src/database/src/group_chat_operations.rs:86-103 | An absent chat fails through the membership delete and changes nothing. The members-not-deleted error always leaves the store unchanged. A store error on the chat row comes after all of the chat's memberships are removed. On success, the chat and all its memberships are gone, and its messages and every other row remain. |
| GroupChatMemberOperations.InsertGroupChatMember | src/database/src/group_chat_member_operations.rs:6-47 | The profile is guarded first: the reply is a panic exactly when the profile is absent. Then the chat: the chat error comes back exactly when the profile exists and the chat does not. A failed guard inserts nothing. Any other error is a store error. On success, exactly one membership (profile, chat) is added under a fresh key, with no duplicate check. |
| GroupChatMemberOperations.GetMembersOfGroup | src/database/src/group_chat_member_operations.rs:49-76 | Fails exactly when the chat is absent. Otherwise it lists exactly the memberships of that chat. |
| GroupChatMemberOperations.ResolveChats | src/database/src/group_chat_member_operations.rs:95-110 | Every result entry is an existing chat, with its stored row, named by some membership. With no dangling membership, the result has one entry per membership, in order. Dangling memberships are skipped, so the result is strictly shorter exactly when one dangles. Completeness and order in general are stated by the three lemmas below. |
| GroupChatMemberOperations.ResolveChatsComplete | src/database/src/group_chat_member_operations.rs:99-110 | Every membership whose chat exists contributes that chat to the result, with its stored row. |
| GroupChatMemberOperations.ResolveChatsAppend | src/database/src/group_chat_member_operations.rs:99-110 | Resolution works element by element in list order: resolving a concatenation is the concatenation of the two resolutions. |
| GroupChatMemberOperations.ResolveChatsOrder | src/database/src/group_chat_member_operations.rs:99-110 | Two resolving memberships contribute their chats in the order the memberships are listed. |
| GroupChatMemberOperations.ResolvedChatsCoverMemberships | src/database/src/group_chat_member_operations.rs:89-110 | Every membership of the profile whose chat exists contributes that chat, and two such memberships contribute in increasing key order. |
| GroupChatMemberOperations.ResolveChatsIsLive | src/database/src/group_chat_member_operations.rs:99-110 | Resolving a membership list is, position by position, looking up the chat of each membership whose chat exists, in list order. |
| GroupChatMemberOperations.LiveLists | src/database/src/group_chat_member_operations.rs:89-110 | The memberships the loop keeps, taken from the profile's key-ordered listing, are exactly the key-ordered listing of the profile's memberships whose chat exists. |
| GroupChatMemberOperations.ResolvedChatsAreMemberships | src/database/src/group_chat_member_operations.rs:89-110 | Every chat resolved from a profile's memberships is one the profile is a member of. |
| GroupChatMemberOperations.GetMembershipsOfProfile | src/database/src/group_chat_member_operations.rs:78-119 | An absent profile panics. Otherwise the result has at most as many entries as the profile has memberships, and each is an existing chat the profile is a member of. Every membership of the profile whose chat exists contributes that chat. Two such memberships contribute in increasing key order. Entry by entry, the result is the chat of each live membership (one of the profile's memberships whose chat exists), taken from an independent key-ordered listing of those memberships: same length, and position i holds the chat of the i-th live membership, so repeated memberships of one chat give repeated entries. |
| GroupChatMemberOperations.FirstOfPairIsLowest | src/database/src/group_chat_member_operations.rs:126-130 | When the profile is a member of the chat, `.one()` finds a row for the pair; that row holds the pair, and no lower key holds it. |
| GroupChatMemberOperations.DeleteMembershipAt | src/database/src/group_chat_member_operations.rs:143-162 | Deleting a row already read either removes exactly that membership and reports 1, or is a store error that changes nothing. It never panics. |
| GroupChatMemberOperations.DeleteSingleMembership | src/database/src/group_chat_member_operations.rs:121-163 | No guard. The chat error is returned exactly when no membership matches the pair, and then nothing changes. When a match exists, the only error is a store error. Otherwise exactly one membership of the pair (the lowest key) is removed, and everything else stays. |
| GroupChatMemberOperations.DeleteMembersOfGroup | src/database/src/group_chat_member_operations.rs:165-195 | The chat error is returned exactly when the chat is absent, and then nothing changes; any other error is a store error. Otherwise every membership of the chat is removed, the count is reported, and no other row changes. |
| GroupChatMemberOperations.DeleteMembershipsOfProfile | src/database/src/group_chat_member_operations.rs:197-223 | The reply is a panic exactly when the profile is absent, and then nothing changes. The only error is a store error. Otherwise every membership of the profile is removed, the count is reported, and no other row changes. |
| GroupChatMessageOperations.FindFirstMessage | src/database/src/group_chat_message_operations.rs:121-124 | A filter naming a column outside the message table is refused. Otherwise the result is the matching message with the lowest key, or none when nothing matches. |
| GroupChatMessageOperations.DeleteMatching | src/database/src/group_chat_message_operations.rs:147-150 | A filter naming a column outside the message table is refused and deletes nothing. Otherwise exactly the matching messages are removed and counted. |
| GroupChatMessageOperations.ChatFilterSelectsChat | src/database/src/group_chat_message_operations.rs:147-149 | A filter on the message's chat column selects exactly the chat's messages. |
| GroupChatMessageOperations.AuthorFilterSelectsAuthorInChat | src/database/src/group_chat_message_operations.rs:173-176 | A filter on the author and chat columns selects exactly that author's messages in that chat. |
| GroupChatMessageOperations.InsertGroupChatMessage | src/database/src/group_chat_message_operations.rs:5-36 | The author is guarded first: the reply is a panic exactly when the author is absent. Then the chat: the chat error comes back exactly when the author exists and the chat does not. A failed guard inserts nothing, and any other error is a store error. On success, one message is added with the given author, chat and content and no send time. |
| GroupChatMessageOperations.GetGroupMessageById | src/database/src/group_chat_message_operations.rs:38-50 | Ok with the stored row exactly when the message is present, else the message-not-found error. |
| GroupChatMessageOperations.CheckGroupMessageExists | src/database/src/group_chat_message_operations.rs:180-193 | Ok exactly when the lookup is, with the same value. Otherwise it gives the query error carrying the group-chat text. |
| GroupChatMessageOperations.GetMessagesOfGroup | src/database/src/group_chat_message_operations.rs:52-67 | Fails exactly when the chat is absent. Otherwise it lists exactly the messages of that chat. |
| GroupChatMessageOperations.GetGroupMessagesOfProfile | src/database/src/group_chat_message_operations.rs:69-96 | An absent profile panics and an absent chat gives the chat error. Otherwise it lists exactly the messages with that author and chat. |
| GroupChatMessageOperations.UpdateGroupMessage | src/database/src/group_chat_message_operations.rs:98-115 | The group-message not-found error is returned exactly when the message is absent, and then nothing changes. For a present message the only error is a store error. Otherwise only its content changes. |
| GroupChatMessageOperations.DeleteFirstMatching | src/database/src/group_chat_message_operations.rs:121-132 | Refused filter: store error. The group-chat query error is returned exactly when the filter resolves and matches nothing. Otherwise exactly one matching message is removed. Failures change nothing. |
| GroupChatMessageOperations.DeleteSingleGroupMessage | src/database/src/group_chat_message_operations.rs:117-133 | As written: always a store error, nothing deleted, on every store. |
| GroupChatMessageOperations.DeleteSingleGroupMessageCorrected | src/database/src/group_chat_message_operations.rs:117-133 | With the lookup on the message key, exactly that message is deleted. The group-chat query error is returned exactly when the message is absent, and then nothing changes. For a present message the only error is a store error. |
| GroupChatMessageOperations.DeleteMessagesOfGroup | src/database/src/group_chat_message_operations.rs:135-151 | As written: the chat guard's error when the chat is absent, a store error otherwise. It never changes the store. |
| GroupChatMessageOperations.DeleteMessagesOfGroupCorrected | src/database/src/group_chat_message_operations.rs:135-151 | With the filter on the chat column: exactly the chat's messages are removed and counted. The chat error is returned exactly when the chat is absent, and it changes nothing. For a present chat the only error is a store error. |
| GroupChatMessageOperations.DeleteGroupMessagesOfProfile | src/database/src/group_chat_message_operations.rs:153-178 | As written: an absent profile panics, an absent chat gives the chat error, and otherwise it is a store error. It never changes the store. |
| GroupChatMessageOperations.DeleteGroupMessagesOfProfileCorrected | src/database/src/group_chat_message_operations.rs:153-178 | With the author condition on the author column: exactly the profile's messages in the chat are removed and counted. The reply is a panic exactly when the profile is absent. The chat error comes back exactly when the profile exists and the chat does not. Past both guards the only error is a store error, and a guard failure changes nothing. |
| PrivateMessageOperations.InsertPrivateMessage | src/database/src/private_message_operations.rs:5-33 | No guard. Sender, recipient and content are stored exactly as given under a fresh key, and nothing else changes. |
| PrivateMessageOperations.GetPrivateMessageById | src/database/src/private_message_operations.rs:67-79 | Ok with the stored row exactly when the message is present, else the message-not-found error. |
| PrivateMessageOperations.UpdatePrivateMessage | src/database/src/private_message_operations.rs:35-51 | The not-found error is returned exactly when the message is absent, and then nothing changes. For a present message the only error is a store error. Otherwise only the content changes. |
| PrivateMessageOperations.GetPrivateMessagesOfChat | src/database/src/private_message_operations.rs:53-65 | Always succeeds and lists exactly the messages with that sender and that recipient. |
| PrivateMessageOperations.DeletePrivateMessageById | src/database/src/private_message_operations.rs:81-90 | Removes only that row and reports 1, or 0 when the id is absent. |
| PrivateMessageOperations.DeletePrivateMessagesOfChat | src/database/src/private_message_operations.rs:92-104 | Removes exactly the messages from sender to recipient, counts them, and leaves every other row. |
| Tables.First | src/database/src/profile_operations.rs:113-116 | `.one()`: none exactly when nothing matches. Otherwise a stored matching row under the lowest matching key. |
| Tables.Select | src/database/src/group_chat_member_operations.rs:60-64 | `.all()`: lists exactly the matching rows, each with its key, in increasing key order. |
| Tables.ListsUnique | src/database/src/group_chat_member_operations.rs:60-64 | A listing is determined by the table and the filter. |
| Properties.InsertThenGetProfile | src/database/src/profile_operations.rs:7-42 | A created profile is found under its new key, and every older profile is found as before. |
| Properties.InsertThenGetProfileByUsername | src/database/src/profile_operations.rs:109-128 | A created profile with a previously unused username is what the username lookup returns. |
| Properties.UpdateThenGetProfile | src/database/src/profile_operations.rs:44-87 | The lookup after an update returns exactly the written columns. |
| Properties.UpdateProfileBypassesUsernameRule | src/database/src/profile_operations.rs:53-71 | "a b" is refused on creation but written by the update. |
| Properties.DeleteProfileTwice | src/database/src/profile_operations.rs:130-148 | After a delete, the lookup panics. A second delete succeeds with count 0 and changes nothing. |
| Properties.InsertGroupChatThenMembers | src/database/src/group_chat_operations.rs:10-50 | Right after creation, the chat's member listing is exactly (first + i, (ids[i], chat)) in list order. |
| Properties.RepeatedMemberGivesTwoMemberships | src/database/src/group_chat_operations.rs:30-47 | Listing one profile twice yields two distinct memberships of it. |
| Properties.UpdateThenGetGroupChat | src/database/src/group_chat_operations.rs:52-70 | The lookup after a picture update shows the new picture and the old creation date. |
| Properties.DeleteGroupChatKeepsMessages | src/database/src/group_chat_operations.rs:86-103 | After a chat delete, both listings report the chat missing and no membership of it remains, but all its messages are still stored. |
| Properties.InsertMemberThenListed | src/database/src/group_chat_member_operations.rs:6-76 | A new membership is the last entry of its chat's member listing. |
| Properties.DeleteMembersThenNoneListed | src/database/src/group_chat_member_operations.rs:49-195 | After deleting a chat's memberships, its member listing is empty. |
| Properties.DeleteSingleMembershipCount | src/database/src/group_chat_member_operations.rs:121-163 | The pair's membership count drops by exactly one, and its other duplicates remain unchanged. |
| Properties.InsertMessageThenListed | src/database/src/group_chat_message_operations.rs:5-96 | A new message is last in its chat's listing and appears in its author's listing for that chat. |
| Properties.UpdateThenGetGroupMessage | src/database/src/group_chat_message_operations.rs:98-115 | The lookup after an update differs from the old row only in its content. |
| Properties.DeleteSingleGroupMessageKeepsMessage | src/database/src/group_chat_message_operations.rs:117-133 | On any store holding the message, the delete as written is a store error and keeps it. The corrected delete removes it, and the lookup then reports it missing. |
| Properties.DeleteMessagesOfGroupKeepsMessages | src/database/src/group_chat_message_operations.rs:135-151 | On any store holding a message in an existing chat, the delete as written is a store error and the chat still lists the message. The corrected delete removes at least one message and leaves the listing empty. |
| Properties.DeleteGroupMessagesOfProfileKeepsMessages | src/database/src/group_chat_message_operations.rs:153-178 | On any store holding a message by an existing author in an existing chat, the delete as written is a store error and keeps the message. The corrected delete removes it and leaves the author's listing for that chat empty. |
| Properties.PrivateChatIsDirected | src/database/src/private_message_operations.rs:53-65 | A message from a to b is listed for (a, b) and not for (b, a). |
| Properties.UpdateThenGetPrivateMessage | src/database/src/private_message_operations.rs:35-51 | The lookup after an update differs from the old row only in its content. |
| Properties.DeleteConversationThenEmpty | src/database/src/private_message_operations.rs:92-104 | After deleting (a, b), its listing is empty and every (b, a) message is untouched. |
| Properties.DeletePrivateMessageTwice | src/database/src/private_message_operations.rs:81-90 | A second delete by key succeeds with count 0 and changes nothing, and the lookup afterwards reports not found. |

## Left out

- **Logging.** The `info!`, `warn!` and `debug!` calls have no effect on results.
- **Async execution and the shared connection.** The model is sequential. The race between a guard and the write after it is not modelled.
- **Connection failures.** A read that names only its own table's columns always succeeds. A write fails only when the `Backend` rejects it, or when it names a column outside its table, which is refused whatever the `Backend` says.
- **What the store enforces itself.** Foreign keys, the unique username, NOT NULL columns and column widths are abstracted into the `Backend` predicate, which may reject any write. For example, the group message insert supplies no send time for a NOT NULL column, and the `Backend` may refuse it.
- **Integer width.** Keys are unbounded integers; the 32-bit width of ids is not modelled.
- **Time values.** Times are an opaque integer. No date arithmetic happens in these operations.
- **Username matching.** `ProfileOperations.GetProfileByUsername` compares usernames exactly. The store's case-insensitive collation is not modelled.
- **`.all()` order.** `Tables.Select` fixes ascending key order, where the store promises no particular order.
- **`.one()` choice.** `Tables.First` fixes the lowest key, where the store may return any matching row.
- **The HTTP layer, API schemas, server bootstrap and migrations** are not part of this model. The migrations serve only as the reference for columns.

## Findings

| source | as written | input that shows it | evidently intended | confidence | as-written member | corrected member |
|---|---|---|---|---|---|---|
| src/database/src/group_chat_message_operations.rs:121-124 | The lookup on `group_chat_message` filters on the membership table's `profile_id` column. The store refuses the statement, so nothing is ever deleted. | Any store holding a message, say message 1: deleting message 1 gives a store error, and the message stays. | Look the message up by its own key and delete it. | not executed | GroupChatMessageOperations.DeleteSingleGroupMessage | GroupChatMessageOperations.DeleteSingleGroupMessageCorrected |
| src/database/src/group_chat_message_operations.rs:147-150 | The delete on `group_chat_message` filters on the membership table's `group_chat_id` column. It is refused after the chat guard passes. | Any store whose chat 1 exists and holds a message: deleting the messages of chat 1 gives a store error, and the chat still lists the message. | Filter on the message's `chat_id`. | not executed | GroupChatMessageOperations.DeleteMessagesOfGroup | GroupChatMessageOperations.DeleteMessagesOfGroupCorrected |
| src/database/src/group_chat_message_operations.rs:173-176 | The author condition of the delete uses the membership table's `profile_id` column. It is refused after both guards pass. | Any store where existing profile 1 wrote a message in existing chat 1: the delete gives a store error, and the message stays. | Filter on the message's `author_id` and `chat_id`. | not executed | GroupChatMessageOperations.DeleteGroupMessagesOfProfile | GroupChatMessageOperations.DeleteGroupMessagesOfProfileCorrected |

=== FILE: entity_store.dfy ===
/** The entity store: five tables, the failures an operation can report, and
    the abstract backend that may reject a write.

    Connection failures are left out, so a read that names only columns of
    its own table always succeeds; a statement that names a column of
    another table is refused as a store error, read or write, whatever the
    backend says. Every other write is offered to a `Backend`, which stands
    for the relational store itself: it may reject the write for any reason
    it likes (a declared foreign key, the unique username constraint, a NOT
    NULL column without a value), and a rejected write changes nothing.
 */
module EntityStore {
  import opened Rows
  import opened Tables

  datatype Store = Store(
    profiles: Table<Profile>,
    chats: Table<GroupChat>,
    members: Table<Membership>,
    groupMessages: Table<GroupMessage>,
    privateMessages: Table<PrivateMessage>)

  /** The failures the operations return, one per distinct error the source
      constructs (variant of the store error plus its message). */
  datatype DbError =
    | InvalidUsername       // custom error: whitespace or length rule broken
    | NoMembers             // custom error: group chat requested without members
    | ChatNotFound          // custom error: "group chat not found" text
    | ChatNotFoundQuery     // query error carrying the same "group chat" text
    | GroupMessageNotFound  // query error: no group message with that id
    | MembersNotDeleted     // custom error: memberships of a chat could not be deleted
    | MessageNotFound       // custom error: no private message with that id
    | StoreError            // the store rejected the statement

  /** What an operation hands back: a value, an error, or a panic
      (`unwrap` on `None` or on an error). */
  datatype Outcome<+T> = Ok(value: T) | Err(error: DbError) | Abort

  /** Passes a failed outcome on unchanged, as `return Err(e)` after a failed
      guard does (a panic inside the guard stays a panic). */
  function Propagate<T, U>(o: Outcome<T>): (r: Outcome<U>)
    requires !o.Ok?
    ensures r.Err? <==> o.Err?
    ensures r.Err? ==> r.error == o.error
  {
    match o
    case Err(e) => Err(e)
    case Abort => Abort
  }

  /** An outcome together with the store as it is afterwards. After an
      `Abort` the store holds every write committed before the panic. */
  datatype Reply<+T> = Reply(outcome: Outcome<T>, store: Store)

  datatype TableName = ProfileTable | GroupChatTable | MemberTable | GroupMessageTable | PrivateMessageTable

  datatype Row =
    | ProfileRow(profile: Profile)
    | ChatRow(chat: GroupChat)
    | MemberRow(membership: Membership)
    | GroupMessageRow(message: GroupMessage)
    | PrivateMessageRow(privateMessage: PrivateMessage)

  /** A statement that changes the store: insert a row, overwrite the row
      under a key, or delete the rows under a set of keys. */
  datatype Write =
    | InsertRow(row: Row)
    | UpdateRow(id: int, row: Row)
    | DeleteRows(table: TableName, ids: set<int>)

  /** Whether the store accepts a write issued against a given state. */
  type Backend = (Store, Write) -> bool

  /** A backend that accepts every write. */
  ghost predicate Healthy(db: Backend) {
    forall s, w :: db(s, w)
  }

  function EmptyStore(): (s: Store)
    ensures Inv(s)
  {
    Store(Empty(), Empty(), Empty(), Empty(), Empty())
  }

  /** The invariant every reachable store satisfies: each counter is above
      the keys in use, and every membership and group message names a
      profile and a group chat that existed when it was written (its ids lie
      below the counters). Private messages are inserted unchecked, so they
      are unconstrained. */
  ghost predicate Inv(s: Store) {
    && Valid(s.profiles)
    && Valid(s.chats)
    && Valid(s.members)
    && Valid(s.groupMessages)
    && Valid(s.privateMessages)
    && (forall k :: k in s.members.rows ==>
          s.members.rows[k].profileId < s.profiles.next && s.members.rows[k].groupChatId < s.chats.next)
    && (forall k :: k in s.groupMessages.rows ==>
          s.groupMessages.rows[k].authorId < s.profiles.next && s.groupMessages.rows[k].chatId < s.chats.next)
  }

  /** Deleting rows from any of the tables keeps the invariant: the
      counters stay where they were and the remaining rows are unchanged. */
  lemma ShrinkKeepsInv(s: Store, after: Store)
    requires Shrinks(s.profiles, after.profiles) && Shrinks(s.chats, after.chats)
    requires Shrinks(s.members, after.members) && Shrinks(s.groupMessages, after.groupMessages)
    requires Shrinks(s.privateMessages, after.privateMessages)
    ensures Inv(s) ==> Inv(after)
  {
    if Inv(s) {
      ShrinksValid(s.profiles, after.profiles);
      ShrinksValid(s.chats, after.chats);
      ShrinksValid(s.members, after.members);
      ShrinksValid(s.groupMessages, after.groupMessages);
      ShrinksValid(s.privateMessages, after.privateMessages);
    }
  }

  // Filters used by the queries and deletes.

  function WithUsername(username: string): Profile -> bool {
    (p: Profile) => p.username == username
  }

  function OfChat(groupChatId: int): Membership -> bool {
    (m: Membership) => m.groupChatId == groupChatId
  }

  function OfProfile(profileId: int): Membership -> bool {
    (m: Membership) => m.profileId == profileId
  }

  function OfPair(profileId: int, groupChatId: int): Membership -> bool {
    (m: Membership) => m.profileId == profileId && m.groupChatId == groupChatId
  }

  /** Memberships of the profile whose chat still exists. */
  function LiveOfProfile(profileId: int, chats: Table<GroupChat>): Membership -> bool {
    (m: Membership) => m.profileId == profileId && m.groupChatId in chats.rows
  }

  function InChat(chatId: int): GroupMessage -> bool {
    (g: GroupMessage) => g.chatId == chatId
  }

  function ByAuthorInChat(authorId: int, chatId: int): GroupMessage -> bool {
    (g: GroupMessage) => g.chatId == chatId && g.authorId == authorId
  }

  /** A private chat is the ordered (sender, recipient) pair. */
  function Conversation(senderId: int, recipientId: int): PrivateMessage -> bool {
    (m: PrivateMessage) => m.senderId == senderId && m.recipientId == recipientId
  }

  /** Keys a delete-by-id statement affects. */
  function KeyIfPresent<R>(t: Table<R>, id: int): set<int> {
    if id in t.rows then {id} else {}
  }
}

=== FILE: group_chat_member_operations.dfy ===
/** Memberships: the join rows between profiles and group chats. No
    operation checks for an existing (profile, chat) pair, so the same pair
    may be stored several times. */
module GroupChatMemberOperations {
  import opened Rows
  import opened Tables
  import opened EntityStore
  import opened Guards

  /** `insert_group_chat_member`: guards the profile, then the chat, then
      inserts one membership row. */
  function InsertGroupChatMember(s: Store, profileId: int, groupChatId: int, db: Backend): (r: Reply<Entry<Membership>>)
    ensures profileId !in s.profiles.rows ==> r == Reply(Abort, s)
    ensures profileId in s.profiles.rows && groupChatId !in s.chats.rows ==> r == Reply(Err(ChatNotFound), s)
    ensures r.outcome.Abort? <==> profileId !in s.profiles.rows
    ensures r.outcome == Err(ChatNotFound) <==> profileId in s.profiles.rows && groupChatId !in s.chats.rows
    ensures !r.outcome.Ok? ==> r.store == s
    ensures r.outcome.Err? ==> r.outcome.error in {ChatNotFound, StoreError}
    ensures r.outcome.Ok? ==>
      var e := r.outcome.value;
      && profileId in s.profiles.rows
      && groupChatId in s.chats.rows
      && e.row == Membership(profileId, groupChatId)
      && e.id == s.members.next
      && r.store == s.(members := Table(s.members.rows[e.id := e.row], s.members.next + 1))
      && (Inv(s) ==> e.id !in s.members.rows)
    ensures profileId in s.profiles.rows && groupChatId in s.chats.rows && Healthy(db) ==> r.outcome.Ok?
    ensures Inv(s) ==> Inv(r.store)
  {
    var profile := CheckProfileExists(s, profileId);
    if !profile.Ok? then Reply(Propagate(profile), s)
    else
      var chat := CheckGroupChatExists(s, groupChatId);
      if !chat.Ok? then Reply(Propagate(chat), s)
      else
        var row := Membership(profile.value.id, chat.value.id);
        if db(s, InsertRow(MemberRow(row))) then
          Reply(Ok(Entry(s.members.next, row)), s.(members := Insert(s.members, row)))
        else Reply(Err(StoreError), s)
  }

  /** `get_members_of_group`: every membership of an existing chat. */
  function GetMembersOfGroup(s: Store, groupChatId: int): (r: Outcome<seq<Entry<Membership>>>)
    ensures r.Ok? <==> groupChatId in s.chats.rows
    ensures !r.Ok? ==> r == Err(ChatNotFound)
    ensures r.Ok? ==> Lists(r.value, s.members, OfChat(groupChatId))
  {
    var chat := CheckGroupChatExists(s, groupChatId);
    if !chat.Ok? then Propagate(chat)
    else Ok(Select(s.members, OfChat(chat.value.id)))
  }

  /** The existing group chat of each membership, in membership order;
      a membership whose chat is gone contributes nothing. */
  function ResolveChats(chats: Table<GroupChat>, ms: seq<Entry<Membership>>): (r: seq<Entry<GroupChat>>)
    ensures |r| <= |ms|
    ensures forall i :: 0 <= i < |r| ==>
      && r[i].id in chats.rows
      && r[i].row == chats.rows[r[i].id]
      && exists j :: 0 <= j < |ms| && ms[j].row.groupChatId == r[i].id
    ensures (forall j :: 0 <= j < |ms| ==> ms[j].row.groupChatId in chats.rows) ==>
      |r| == |ms| && forall i :: 0 <= i < |r| ==> r[i].id == ms[i].row.groupChatId
    ensures (exists j :: 0 <= j < |ms| && ms[j].row.groupChatId !in chats.rows) ==> |r| < |ms|
    decreases |ms|
  {
    if ms == [] then []
    else
      var rest := ResolveChats(chats, ms[1..]);
      var chatId := ms[0].row.groupChatId;
      if chatId in chats.rows then [Entry(chatId, chats.rows[chatId])] + rest else rest
  }

  /** Resolving a concatenation resolves each part, in order. */
  lemma {:induction false} ResolveChatsAppend(chats: Table<GroupChat>, a: seq<Entry<Membership>>, b: seq<Entry<Membership>>)
    ensures ResolveChats(chats, a + b) == ResolveChats(chats, a) + ResolveChats(chats, b)
    decreases |a|
  {
    if a != [] {
      var c := a[0].row.groupChatId;
      var head := if c in chats.rows then [Entry(c, chats.rows[c])] else [];
      assert (a + b)[0] == a[0];
      assert (a + b)[1..] == a[1..] + b;
      assert ResolveChats(chats, a + b) == head + ResolveChats(chats, a[1..] + b);
      assert ResolveChats(chats, a) == head + ResolveChats(chats, a[1..]);
      ResolveChatsAppend(chats, a[1..], b);
    } else {
      assert a + b == b;
    }
  }

  /** Every membership whose chat exists contributes that chat. */
  lemma {:induction false} ResolveChatsComplete(chats: Table<GroupChat>, ms: seq<Entry<Membership>>)
    ensures forall j :: 0 <= j < |ms| && ms[j].row.groupChatId in chats.rows ==>
      Entry(ms[j].row.groupChatId, chats.rows[ms[j].row.groupChatId]) in ResolveChats(chats, ms)
    decreases |ms|
  {
    if ms != [] {
      ResolveChatsComplete(chats, ms[1..]);
      forall j | 1 <= j < |ms|
        ensures ms[1..][j - 1] == ms[j]
      {
      }
    }
  }

  /** Two resolving memberships contribute their chats in membership order. */
  lemma ResolveChatsOrder(chats: Table<GroupChat>, ms: seq<Entry<Membership>>, j1: int, j2: int)
    requires 0 <= j1 < j2 < |ms|
    requires ms[j1].row.groupChatId in chats.rows && ms[j2].row.groupChatId in chats.rows
    ensures var r := ResolveChats(chats, ms);
      exists i1, i2 :: 0 <= i1 < i2 < |r| && r[i1].id == ms[j1].row.groupChatId && r[i2].id == ms[j2].row.groupChatId
  {
    var before, after := ms[..j2], ms[j2..];
    assert ms == before + after;
    ResolveChatsAppend(chats, before, after);
    ResolveChatsComplete(chats, before);
    assert before[j1] == ms[j1] && after[0] == ms[j2];
    var head := ResolveChats(chats, before);
    var r := ResolveChats(chats, ms);
    var i1 :| 0 <= i1 < |head| && head[i1] == Entry(ms[j1].row.groupChatId, chats.rows[ms[j1].row.groupChatId]);
    assert r[i1] == head[i1] && r[|head|].id == ms[j2].row.groupChatId;
  }

  /** Some membership row links the profile to the chat. */
  ghost predicate IsMemberOf(s: Store, profileId: int, groupChatId: int) {
    exists k :: k in s.members.rows && s.members.rows[k] == Membership(profileId, groupChatId)
  }

  /** Every chat resolved from a profile's memberships is one the profile
      belongs to. */
  lemma ResolvedChatsAreMemberships(s: Store, profileId: int, memberships: seq<Entry<Membership>>)
    requires Lists(memberships, s.members, OfProfile(profileId))
    ensures var groups := ResolveChats(s.chats, memberships);
      forall i :: 0 <= i < |groups| ==> IsMemberOf(s, profileId, groups[i].id)
  {
    forall j | 0 <= j < |memberships|
      ensures IsMemberOf(s, profileId, memberships[j].row.groupChatId)
    {
      var m := memberships[j];
      assert s.members.rows[m.id] == Membership(profileId, m.row.groupChatId);
    }
  }

  /** Key `k` is a membership of the profile in a chat that still exists. */
  ghost predicate Resolving(s: Store, profileId: int, k: int) {
    k in s.members.rows && s.members.rows[k].profileId == profileId && s.members.rows[k].groupChatId in s.chats.rows
  }

  /** Every membership of the profile whose chat exists contributes that
      chat, and two such memberships contribute in key order. */
  lemma ResolvedChatsCoverMemberships(s: Store, profileId: int, memberships: seq<Entry<Membership>>)
    requires Lists(memberships, s.members, OfProfile(profileId))
    ensures var groups := ResolveChats(s.chats, memberships);
      forall k :: Resolving(s, profileId, k) ==>
        Entry(s.members.rows[k].groupChatId, s.chats.rows[s.members.rows[k].groupChatId]) in groups
    ensures var groups := ResolveChats(s.chats, memberships);
      forall k1, k2 :: Resolving(s, profileId, k1) && Resolving(s, profileId, k2) && k1 < k2 ==>
        exists i1, i2 :: 0 <= i1 < i2 < |groups|
          && groups[i1].id == s.members.rows[k1].groupChatId && groups[i2].id == s.members.rows[k2].groupChatId
  {
    var t := s.members;
    ResolveChatsComplete(s.chats, memberships);
    forall k | Resolving(s, profileId, k)
      ensures Entry(t.rows[k].groupChatId, s.chats.rows[t.rows[k].groupChatId]) in ResolveChats(s.chats, memberships)
    {
      var j := ListedAt(memberships, t, OfProfile(profileId), k);
    }
    forall k1, k2 | Resolving(s, profileId, k1) && Resolving(s, profileId, k2) && k1 < k2
      ensures var groups := ResolveChats(s.chats, memberships);
        exists i1, i2 :: 0 <= i1 < i2 < |groups|
          && groups[i1].id == t.rows[k1].groupChatId && groups[i2].id == t.rows[k2].groupChatId
    {
      var j1 := ListedAt(memberships, t, OfProfile(profileId), k1);
      var j2 := ListedAt(memberships, t, OfProfile(profileId), k2);
      assert Ids(memberships)[j1] == k1 && Ids(memberships)[j2] == k2;
      assert j1 < j2;
      ResolveChatsOrder(s.chats, memberships, j1, j2);
    }
  }

  /** The memberships of `ms` whose chat exists, in order. */
  function Live(chats: Table<GroupChat>, ms: seq<Entry<Membership>>): seq<Entry<Membership>>
    decreases |ms|
  {
    if ms == [] then []
    else (if ms[0].row.groupChatId in chats.rows then [ms[0]] else []) + Live(chats, ms[1..])
  }

  /** The live entries are exactly the entries whose chat exists. */
  lemma {:induction false} LiveMembers(chats: Table<GroupChat>, ms: seq<Entry<Membership>>)
    ensures forall e :: e in Live(chats, ms) <==> e in ms && e.row.groupChatId in chats.rows
    decreases |ms|
  {
    if ms != [] {
      LiveMembers(chats, ms[1..]);
      assert forall e :: e in ms <==> e == ms[0] || e in ms[1..];
    }
  }

  /** Resolving is looking up the chat of each live membership, position by
      position. */
  lemma {:induction false} ResolveChatsIsLive(chats: Table<GroupChat>, ms: seq<Entry<Membership>>)
    ensures var r := ResolveChats(chats, ms);
      var live := Live(chats, ms);
      && |r| == |live|
      && forall i :: 0 <= i < |live| ==>
        live[i].row.groupChatId in chats.rows
        && r[i] == Entry(live[i].row.groupChatId, chats.rows[live[i].row.groupChatId])
    decreases |ms|
  {
    if ms != [] {
      ResolveChatsIsLive(chats, ms[1..]);
    }
  }

  /** The keys of the live entries after the head of an increasing listing
      all exceed the head's key. */
  lemma HeadBelowLive(chats: Table<GroupChat>, ms: seq<Entry<Membership>>)
    requires ms != [] && Increasing(Ids(ms))
    ensures forall y :: y in Ids(Live(chats, ms[1..])) ==> ms[0].id < y
  {
    var tail := ms[1..];
    var rest := Live(chats, tail);
    LiveMembers(chats, tail);
    forall y | y in Ids(rest)
      ensures ms[0].id < y
    {
      var i :| 0 <= i < |rest| && Ids(rest)[i] == y;
      assert rest[i] in rest;
      var j :| 0 <= j < |tail| && tail[j] == rest[i];
      assert Ids(ms)[j + 1] == y;
    }
  }

  /** Keeping only some entries of an increasing listing keeps it increasing. */
  lemma {:induction false} LiveIncreasing(chats: Table<GroupChat>, ms: seq<Entry<Membership>>)
    requires Increasing(Ids(ms))
    ensures Increasing(Ids(Live(chats, ms)))
    decreases |ms|
  {
    if ms != [] {
      var tail := ms[1..];
      assert Ids(tail) == Ids(ms)[1..];
      IncreasingTail(Ids(ms));
      LiveIncreasing(chats, tail);
      var rest := Live(chats, tail);
      if ms[0].row.groupChatId in chats.rows {
        assert Live(chats, ms) == [ms[0]] + rest;
        assert Ids(Live(chats, ms)) == [ms[0].id] + Ids(rest);
        HeadBelowLive(chats, ms);
        IncreasingCons(ms[0].id, Ids(rest));
      } else {
        assert Live(chats, ms) == rest;
      }
    }
  }

  /** The live part of the profile's membership listing is the listing of
      its live memberships. */
  lemma LiveLists(s: Store, profileId: int, ms: seq<Entry<Membership>>)
    requires Lists(ms, s.members, OfProfile(profileId))
    ensures Lists(Live(s.chats, ms), s.members, LiveOfProfile(profileId, s.chats))
  {
    var live := Live(s.chats, ms);
    var p := LiveOfProfile(profileId, s.chats);
    LiveMembers(s.chats, ms);
    forall i | 0 <= i < |live|
      ensures live[i].id in s.members.rows && live[i].row == s.members.rows[live[i].id] && p(live[i].row)
    {
      assert live[i] in ms;
      var j :| 0 <= j < |ms| && ms[j] == live[i];
    }
    forall k | k in s.members.rows && p(s.members.rows[k])
      ensures k in Ids(live)
    {
      var j := ListedAt(ms, s.members, OfProfile(profileId), k);
      assert ms[j] in live;
      var i :| 0 <= i < |live| && live[i] == ms[j];
      assert Ids(live)[i] == k;
    }
    LiveIncreasing(s.chats, ms);
  }

  /** `get_memberships_of_profile`: guards the profile, then resolves each of
      its memberships to its group chat, skipping memberships whose chat no
      longer exists. */
  function GetMembershipsOfProfile(s: Store, profileId: int): (r: Outcome<seq<Entry<GroupChat>>>)
    ensures r.Ok? <==> profileId in s.profiles.rows
    ensures !r.Ok? ==> r.Abort?
    ensures r.Ok? ==> |r.value| <= |Where(s.members, OfProfile(profileId))|
    ensures r.Ok? ==> forall i :: 0 <= i < |r.value| ==>
      && r.value[i].id in s.chats.rows
      && r.value[i].row == s.chats.rows[r.value[i].id]
      && IsMemberOf(s, profileId, r.value[i].id)
    ensures r.Ok? ==> forall k :: Resolving(s, profileId, k) ==>
      Entry(s.members.rows[k].groupChatId, s.chats.rows[s.members.rows[k].groupChatId]) in r.value
    ensures r.Ok? ==> forall k1, k2 :: Resolving(s, profileId, k1) && Resolving(s, profileId, k2) && k1 < k2 ==>
      exists i1, i2 :: 0 <= i1 < i2 < |r.value|
        && r.value[i1].id == s.members.rows[k1].groupChatId && r.value[i2].id == s.members.rows[k2].groupChatId
    ensures r.Ok? ==>
      var live := Select(s.members, LiveOfProfile(profileId, s.chats));
      && |r.value| == |live|
      && forall i :: 0 <= i < |live| ==>
        live[i].row.groupChatId in s.chats.rows
        && r.value[i] == Entry(live[i].row.groupChatId, s.chats.rows[live[i].row.groupChatId])
  {
    var profile := CheckProfileExists(s, profileId);
    if !profile.Ok? then Propagate(profile)
    else
      var memberships := Select(s.members, OfProfile(profile.value.id));
      ResolvedChatsAreMemberships(s, profileId, memberships);
      ResolvedChatsCoverMemberships(s, profileId, memberships);
      LiveLists(s, profileId, memberships);
      ListsUnique(Live(s.chats, memberships), Select(s.members, LiveOfProfile(profileId, s.chats)),
                  s.members, LiveOfProfile(profileId, s.chats));
      ResolveChatsIsLive(s.chats, memberships);
      Ok(ResolveChats(s.chats, memberships))
  }

  /** After a successful single delete: `k` was a membership and it alone is gone. */
  ghost predicate DropsMembership(s: Store, after: Store, k: int) {
    k in s.members.rows && after == s.(members := Table(s.members.rows - {k}, s.members.next))
  }

  /** `k` holds the (profile, chat) pair, and no lower key does. */
  ghost predicate LowestOfPair(s: Store, k: int, profileId: int, groupChatId: int) {
    && k in s.members.rows
    && s.members.rows[k] == Membership(profileId, groupChatId)
    && forall j :: j in s.members.rows && s.members.rows[j] == Membership(profileId, groupChatId) ==> k <= j
  }

  /** For a pair that has a membership, `.one()` finds a row, and it is the
      pair's lowest membership. */
  lemma FirstOfPairIsLowest(s: Store, profileId: int, groupChatId: int)
    requires IsMemberOf(s, profileId, groupChatId)
    ensures First(s.members, OfPair(profileId, groupChatId)).Some?
    ensures LowestOfPair(s, First(s.members, OfPair(profileId, groupChatId)).value.id, profileId, groupChatId)
  {
    var held :| held in s.members.rows && s.members.rows[held] == Membership(profileId, groupChatId);
    assert held in Where(s.members, OfPair(profileId, groupChatId));
    var k := First(s.members, OfPair(profileId, groupChatId)).value.id;
    forall j | j in s.members.rows && s.members.rows[j] == Membership(profileId, groupChatId)
      ensures k <= j
    {
      assert OfPair(profileId, groupChatId)(s.members.rows[j]);
    }
  }

  /** Deleting the membership row under key `k` (the `delete` of a row
      already read). */
  function DeleteMembershipAt(s: Store, k: int, db: Backend): (r: Reply<nat>)
    requires k in s.members.rows
    ensures !r.outcome.Abort?
    ensures !r.outcome.Ok? ==> r == Reply(Err(StoreError), s)
    ensures r.outcome.Ok? ==> r.outcome.value == 1 && DropsMembership(s, r.store, k)
    ensures Healthy(db) ==> r.outcome.Ok?
    ensures Inv(s) ==> Inv(r.store)
  {
    if db(s, DeleteRows(MemberTable, {k})) then
      var after := s.(members := Remove(s.members, {k}));
      RemoveShrinks(s.members, {k});
      ShrinkKeepsInv(s, after);
      Reply(Ok(1), after)
    else Reply(Err(StoreError), s)
  }

  /** `delete_single_membership`: finds one membership of the
      (profile, chat) pair, the one with the lowest key, and deletes it.
      Neither the profile nor the chat is guarded; no matching row is
      reported with the group chat error. */
  function DeleteSingleMembership(s: Store, groupChatId: int, profileId: int, db: Backend): (r: Reply<nat>)
    ensures Where(s.members, OfPair(profileId, groupChatId)) == map[] ==> r == Reply(Err(ChatNotFound), s)
    ensures r.outcome == Err(ChatNotFound) <==> Where(s.members, OfPair(profileId, groupChatId)) == map[]
    ensures !r.outcome.Ok? ==> r.store == s
    ensures !r.outcome.Abort?
    ensures r.outcome.Err? ==> r.outcome.error in {ChatNotFound, StoreError}
    ensures r.outcome.Ok? ==>
      r.outcome.value == 1 && exists k :: DropsMembership(s, r.store, k) && LowestOfPair(s, k, profileId, groupChatId)
    ensures Where(s.members, OfPair(profileId, groupChatId)) != map[] && Healthy(db) ==> r.outcome.Ok?
    ensures Inv(s) ==> Inv(r.store)
  {
    var target := First(s.members, OfPair(profileId, groupChatId));
    if target.None? then Reply(Err(ChatNotFound), s)
    else
      assert s.members.rows[target.value.id] == Membership(profileId, groupChatId);
      FirstOfPairIsLowest(s, profileId, groupChatId);
      DeleteMembershipAt(s, target.value.id, db)
  }

  /** `delete_members_of_group`: guards the chat, then deletes every
      membership of it. */
  function DeleteMembersOfGroup(s: Store, groupChatId: int, db: Backend): (r: Reply<nat>)
    ensures groupChatId !in s.chats.rows ==> r == Reply(Err(ChatNotFound), s)
    ensures r.outcome == Err(ChatNotFound) <==> groupChatId !in s.chats.rows
    ensures !r.outcome.Ok? ==> r.store == s
    ensures !r.outcome.Abort?
    ensures r.outcome.Err? ==> r.outcome.error in {ChatNotFound, StoreError}
    ensures r.outcome.Ok? ==>
      && groupChatId in s.chats.rows
      && r.outcome.value == |Where(s.members, OfChat(groupChatId))|
      && r.store == s.(members := r.store.members)
      && RemovedWhere(s.members, r.store.members, OfChat(groupChatId))
    ensures groupChatId in s.chats.rows && Healthy(db) ==> r.outcome.Ok?
    ensures Inv(s) ==> Inv(r.store)
  {
    var chat := CheckGroupChatExists(s, groupChatId);
    if !chat.Ok? then Reply(Propagate(chat), s)
    else
      var doomed := Where(s.members, OfChat(groupChatId));
      if db(s, DeleteRows(MemberTable, doomed.Keys)) then
        var after := s.(members := DeleteWhere(s.members, OfChat(groupChatId)));
        DeleteWhereRemoves(s.members, OfChat(groupChatId));
        ShrinkKeepsInv(s, after);
        Reply(Ok(|doomed|), after)
      else Reply(Err(StoreError), s)
  }

  /** `delete_memberships_of_profile`: guards the profile, then deletes every
      membership of it. */
  function DeleteMembershipsOfProfile(s: Store, profileId: int, db: Backend): (r: Reply<nat>)
    ensures profileId !in s.profiles.rows ==> r == Reply(Abort, s)
    ensures !r.outcome.Ok? ==> r.store == s
    ensures r.outcome.Err? ==> r.outcome.error == StoreError
    ensures r.outcome.Abort? <==> profileId !in s.profiles.rows
    ensures r.outcome.Ok? ==>
      && profileId in s.profiles.rows
      && r.outcome.value == |Where(s.members, OfProfile(profileId))|
      && r.store == s.(members := r.store.members)
      && RemovedWhere(s.members, r.store.members, OfProfile(profileId))
    ensures profileId in s.profiles.rows && Healthy(db) ==> r.outcome.Ok?
    ensures Inv(s) ==> Inv(r.store)
  {
    var profile := CheckProfileExists(s, profileId);
    if !profile.Ok? then Reply(Propagate(profile), s)
    else
      var doomed := Where(s.members, OfProfile(profileId));
      if db(s, DeleteRows(MemberTable, doomed.Keys)) then
        var after := s.(members := DeleteWhere(s.members, OfProfile(profileId)));
        DeleteWhereRemoves(s.members, OfProfile(profileId));
        ShrinkKeepsInv(s, after);
        Reply(Ok(|doomed|), after)
      else Reply(Err(StoreError), s)
  }
}

=== FILE: group_chat_message_operations.dfy ===
/** Messages posted to group chats.

    The three deletes build their WHERE clause from column references, and
    some of those references name columns of `group_chat_member` although the
    statement runs against `group_chat_message` alone. The store refuses such
    a statement, so this module models the filters themselves: a condition
    names a column, the store accepts a statement only when every column it
    names belongs to `group_chat_message`, and each delete is modelled once as
    written and once with the columns its name promises (`...Corrected`).
 */
module GroupChatMessageOperations {
  import opened Rows
  import opened Tables
  import opened EntityStore
  import opened Guards

  /** A column reference an equality filter may carry: the three integer
      columns of `group_chat_message`, and the two of `group_chat_member`. */
  datatype ColumnRef =
    | MessageIdColumn
    | AuthorIdColumn
    | ChatIdColumn
    | MemberProfileIdColumn
    | MemberGroupChatIdColumn

  /** `column = value`. */
  datatype Condition = Equals(column: ColumnRef, value: int)

  predicate OnMessageTable(c: ColumnRef) {
    c.MessageIdColumn? || c.AuthorIdColumn? || c.ChatIdColumn?
  }

  /** The store can evaluate the filter against `group_chat_message`: it
      names no column of another table. */
  predicate Resolves(conds: seq<Condition>) {
    forall i :: 0 <= i < |conds| ==> OnMessageTable(conds[i].column)
  }

  /** The value of a message column in the row stored under key `k`. */
  function ColumnValue(k: int, g: GroupMessage, c: ColumnRef): int
    requires OnMessageTable(c)
  {
    if c.MessageIdColumn? then k
    else if c.AuthorIdColumn? then g.authorId
    else g.chatId
  }

  /** Every condition holds of the row stored under `k`. */
  predicate Satisfies(k: int, g: GroupMessage, conds: seq<Condition>)
    requires Resolves(conds)
  {
    forall i :: 0 <= i < |conds| ==> ColumnValue(k, g, conds[i].column) == conds[i].value
  }

  lemma SatisfiesOne(k: int, g: GroupMessage, c: Condition)
    requires OnMessageTable(c.column)
    ensures Resolves([c])
    ensures Satisfies(k, g, [c]) <==> ColumnValue(k, g, c.column) == c.value
  {
    assert [c][0] == c;
  }

  lemma SatisfiesTwo(k: int, g: GroupMessage, c: Condition, d: Condition)
    requires OnMessageTable(c.column) && OnMessageTable(d.column)
    ensures Resolves([c, d])
    ensures Satisfies(k, g, [c, d]) <==>
      ColumnValue(k, g, c.column) == c.value && ColumnValue(k, g, d.column) == d.value
  {
    assert [c, d][0] == c && [c, d][1] == d;
  }

  /** A filter whose first condition names a membership column is refused. */
  lemma MembershipColumnRefused(conds: seq<Condition>)
    requires |conds| > 0 && !OnMessageTable(conds[0].column)
    ensures !Resolves(conds)
  {
  }

  /** The group messages a resolvable filter selects. */
  function Matching(t: Table<GroupMessage>, conds: seq<Condition>): (m: map<int, GroupMessage>)
    requires Resolves(conds)
    ensures forall k :: k in m <==> k in t.rows && Satisfies(k, t.rows[k], conds)
    ensures forall k :: k in m ==> m[k] == t.rows[k]
  {
    map k | k in t.rows && Satisfies(k, t.rows[k], conds) :: t.rows[k]
  }

  /** `find().filter(..).one()` on group messages: refused when the filter
      does not resolve, otherwise the matching message with the lowest key. */
  function FindFirstMessage(s: Store, conds: seq<Condition>): (r: Outcome<Option<Entry<GroupMessage>>>)
    ensures !Resolves(conds) <==> r == Err(StoreError)
    ensures !r.Abort?
    ensures r.Ok? && r.value.None? ==> Matching(s.groupMessages, conds) == map[]
    ensures r.Ok? && r.value.Some? ==>
      var e := r.value.value;
      && e.id in s.groupMessages.rows
      && e.row == s.groupMessages.rows[e.id]
      && Satisfies(e.id, e.row, conds)
      && forall k :: k in s.groupMessages.rows && Satisfies(k, s.groupMessages.rows[k], conds) ==> e.id <= k
  {
    if !Resolves(conds) then Err(StoreError)
    else
      var view := Table(Matching(s.groupMessages, conds), s.groupMessages.next);
      var found := First(view, (g: GroupMessage) => true);
      if found.None? then Ok(None)
      else
        var k := found.value.id;
        assert k in view.rows;
        Ok(Some(Entry(k, s.groupMessages.rows[k])))
  }

  /** `delete_many().filter(..).exec()` on group messages: refused when the
      filter does not resolve, otherwise deletes every matching message and
      reports how many. */
  function DeleteMatching(s: Store, conds: seq<Condition>, db: Backend): (r: Reply<nat>)
    ensures !Resolves(conds) ==> r == Reply(Err(StoreError), s)
    ensures !r.outcome.Abort?
    ensures !r.outcome.Ok? ==> r == Reply(Err(StoreError), s)
    ensures r.outcome.Ok? ==>
      && Resolves(conds)
      && r.outcome.value == |Matching(s.groupMessages, conds)|
      && r.store == s.(groupMessages := r.store.groupMessages)
      && r.store.groupMessages.next == s.groupMessages.next
      && (forall k :: k in r.store.groupMessages.rows <==>
            k in s.groupMessages.rows && !Satisfies(k, s.groupMessages.rows[k], conds))
      && (forall k :: k in r.store.groupMessages.rows ==>
            r.store.groupMessages.rows[k] == s.groupMessages.rows[k])
    ensures Resolves(conds) && Healthy(db) ==> r.outcome.Ok?
    ensures Inv(s) ==> Inv(r.store)
  {
    if !Resolves(conds) then Reply(Err(StoreError), s)
    else
      var doomed := Matching(s.groupMessages, conds);
      if db(s, DeleteRows(GroupMessageTable, doomed.Keys)) then
        var after := s.(groupMessages := Remove(s.groupMessages, doomed.Keys));
        RemoveShrinks(s.groupMessages, doomed.Keys);
        ShrinkKeepsInv(s, after);
        Reply(Ok(|doomed|), after)
      else Reply(Err(StoreError), s)
  }

  /** A filter on the chat column alone selects what `InChat` does. */
  lemma ChatFilterSelectsChat(t: Table<GroupMessage>, chatId: int)
    ensures Resolves([Equals(ChatIdColumn, chatId)])
    ensures Matching(t, [Equals(ChatIdColumn, chatId)]) == Where(t, InChat(chatId))
  {
    var conds := [Equals(ChatIdColumn, chatId)];
    SatisfiesOne(0, GroupMessage(0, None, None, 0), conds[0]);
    forall k | k in t.rows
      ensures Satisfies(k, t.rows[k], conds) <==> InChat(chatId)(t.rows[k])
    {
      SatisfiesOne(k, t.rows[k], conds[0]);
    }
  }

  /** A filter on the author and chat columns selects what `ByAuthorInChat` does. */
  lemma AuthorFilterSelectsAuthorInChat(t: Table<GroupMessage>, authorId: int, chatId: int)
    ensures Resolves([Equals(AuthorIdColumn, authorId), Equals(ChatIdColumn, chatId)])
    ensures Matching(t, [Equals(AuthorIdColumn, authorId), Equals(ChatIdColumn, chatId)])
         == Where(t, ByAuthorInChat(authorId, chatId))
  {
    var conds := [Equals(AuthorIdColumn, authorId), Equals(ChatIdColumn, chatId)];
    SatisfiesTwo(0, GroupMessage(0, None, None, 0), conds[0], conds[1]);
    forall k | k in t.rows
      ensures Satisfies(k, t.rows[k], conds) <==> ByAuthorInChat(authorId, chatId)(t.rows[k])
    {
      SatisfiesTwo(k, t.rows[k], conds[0], conds[1]);
    }
  }

  /** `insert_group_chat_message`: guards the author, then the chat, then
      inserts the message. No send time is supplied. */
  function InsertGroupChatMessage(s: Store, authorId: int, groupChatId: int, content: string, db: Backend)
    : (r: Reply<Entry<GroupMessage>>)
    ensures authorId !in s.profiles.rows ==> r == Reply(Abort, s)
    ensures authorId in s.profiles.rows && groupChatId !in s.chats.rows ==> r == Reply(Err(ChatNotFound), s)
    ensures r.outcome.Abort? <==> authorId !in s.profiles.rows
    ensures r.outcome == Err(ChatNotFound) <==> authorId in s.profiles.rows && groupChatId !in s.chats.rows
    ensures !r.outcome.Ok? ==> r.store == s
    ensures r.outcome.Err? ==> r.outcome.error in {ChatNotFound, StoreError}
    ensures r.outcome.Ok? ==>
      var e := r.outcome.value;
      && authorId in s.profiles.rows
      && groupChatId in s.chats.rows
      && e.row == GroupMessage(authorId, None, Some(content), groupChatId)
      && e.id == s.groupMessages.next
      && r.store == s.(groupMessages := Table(s.groupMessages.rows[e.id := e.row], s.groupMessages.next + 1))
      && (Inv(s) ==> e.id !in s.groupMessages.rows)
    ensures authorId in s.profiles.rows && groupChatId in s.chats.rows && Healthy(db) ==> r.outcome.Ok?
    ensures Inv(s) ==> Inv(r.store)
  {
    var author := CheckProfileExists(s, authorId);
    if !author.Ok? then Reply(Propagate(author), s)
    else
      var chat := CheckGroupChatExists(s, groupChatId);
      if !chat.Ok? then Reply(Propagate(chat), s)
      else
        var row := GroupMessage(author.value.id, None, Some(content), chat.value.id);
        if db(s, InsertRow(GroupMessageRow(row))) then
          Reply(Ok(Entry(s.groupMessages.next, row)), s.(groupMessages := Insert(s.groupMessages, row)))
        else Reply(Err(StoreError), s)
  }

  /** `get_group_message_by_id`. */
  function GetGroupMessageById(s: Store, messageId: int): (r: Outcome<Entry<GroupMessage>>)
    ensures r.Ok? <==> messageId in s.groupMessages.rows
    ensures r.Ok? ==> r.value.id == messageId && r.value.row == s.groupMessages.rows[messageId]
    ensures !r.Ok? ==> r == Err(GroupMessageNotFound)
  {
    if messageId in s.groupMessages.rows then Ok(Entry(messageId, s.groupMessages.rows[messageId]))
    else Err(GroupMessageNotFound)
  }

  /** `check_group_message_exists`: the lookup, with its error replaced by a
      query error that carries the group chat text. */
  function CheckGroupMessageExists(s: Store, messageId: int): (r: Outcome<Entry<GroupMessage>>)
    ensures r.Ok? <==> GetGroupMessageById(s, messageId).Ok?
    ensures r.Ok? ==> r == GetGroupMessageById(s, messageId)
    ensures !r.Ok? ==> r == Err(ChatNotFoundQuery)
  {
    var found := GetGroupMessageById(s, messageId);
    if found.Err? then Err(ChatNotFoundQuery) else found
  }

  /** `get_messages_of_group`: every message of an existing chat. */
  function GetMessagesOfGroup(s: Store, groupChatId: int): (r: Outcome<seq<Entry<GroupMessage>>>)
    ensures r.Ok? <==> groupChatId in s.chats.rows
    ensures !r.Ok? ==> r == Err(ChatNotFound)
    ensures r.Ok? ==> Lists(r.value, s.groupMessages, InChat(groupChatId))
  {
    var chat := CheckGroupChatExists(s, groupChatId);
    if !chat.Ok? then Propagate(chat)
    else Ok(Select(s.groupMessages, InChat(chat.value.id)))
  }

  /** `get_group_messages_of_profile`: the messages one existing profile
      wrote in one existing chat. */
  function GetGroupMessagesOfProfile(s: Store, profileId: int, groupChatId: int)
    : (r: Outcome<seq<Entry<GroupMessage>>>)
    ensures profileId !in s.profiles.rows ==> r == Abort
    ensures profileId in s.profiles.rows && groupChatId !in s.chats.rows ==> r == Err(ChatNotFound)
    ensures r.Ok? <==> profileId in s.profiles.rows && groupChatId in s.chats.rows
    ensures r.Ok? ==> Lists(r.value, s.groupMessages, ByAuthorInChat(profileId, groupChatId))
  {
    var author := CheckProfileExists(s, profileId);
    if !author.Ok? then Propagate(author)
    else
      var chat := CheckGroupChatExists(s, groupChatId);
      if !chat.Ok? then Propagate(chat)
      else Ok(Select(s.groupMessages, ByAuthorInChat(author.value.id, chat.value.id)))
  }

  /** `update_group_message`: replaces the content of an existing message;
      author, chat and send time stay. */
  function UpdateGroupMessage(s: Store, messageId: int, content: string, db: Backend): (r: Reply<Entry<GroupMessage>>)
    ensures messageId !in s.groupMessages.rows ==> r == Reply(Err(GroupMessageNotFound), s)
    ensures r.outcome == Err(GroupMessageNotFound) <==> messageId !in s.groupMessages.rows
    ensures !r.outcome.Abort?
    ensures !r.outcome.Ok? ==> r.store == s
    ensures r.outcome.Err? ==> r.outcome.error in {GroupMessageNotFound, StoreError}
    ensures r.outcome.Ok? ==>
      var e := r.outcome.value;
      var old_ := s.groupMessages.rows[messageId];
      && messageId in s.groupMessages.rows
      && e.id == messageId
      && e.row == GroupMessage(old_.authorId, old_.sendTime, Some(content), old_.chatId)
      && r.store == s.(groupMessages := Table(s.groupMessages.rows[messageId := e.row], s.groupMessages.next))
    ensures messageId in s.groupMessages.rows && Healthy(db) ==> r.outcome.Ok?
    ensures Inv(s) ==> Inv(r.store)
  {
    var target := GetGroupMessageById(s, messageId);
    if target.Err? then Reply(Err(GroupMessageNotFound), s)
    else
      var row := target.value.row.(content := Some(content));
      if db(s, UpdateRow(target.value.id, GroupMessageRow(row))) then
        Reply(Ok(Entry(target.value.id, row)), s.(groupMessages := Put(s.groupMessages, target.value.id, row)))
      else Reply(Err(StoreError), s)
  }

  /** Shared body of the single delete: find the first message the filter
      selects (none is the group chat query error), then delete it by key. */
  function DeleteFirstMatching(s: Store, conds: seq<Condition>, db: Backend): (r: Reply<nat>)
    ensures !Resolves(conds) ==> r == Reply(Err(StoreError), s)
    ensures !r.outcome.Abort?
    ensures !r.outcome.Ok? ==> r.store == s
    ensures r.outcome.Err? ==> r.outcome.error in {ChatNotFoundQuery, StoreError}
    ensures Resolves(conds) && Matching(s.groupMessages, conds) == map[] ==> r == Reply(Err(ChatNotFoundQuery), s)
    ensures r.outcome == Err(ChatNotFoundQuery) <==> Resolves(conds) && Matching(s.groupMessages, conds) == map[]
    ensures r.outcome.Ok? ==>
      && Resolves(conds)
      && r.outcome.value == 1
      && exists k ::
           && k in s.groupMessages.rows
           && Satisfies(k, s.groupMessages.rows[k], conds)
           && r.store == s.(groupMessages := Table(s.groupMessages.rows - {k}, s.groupMessages.next))
    ensures Resolves(conds) && Matching(s.groupMessages, conds) != map[] && Healthy(db) ==> r.outcome.Ok?
    ensures Inv(s) ==> Inv(r.store)
  {
    var found := FindFirstMessage(s, conds);
    if !found.Ok? then Reply(Propagate(found), s)
    else if found.value.None? then Reply(Err(ChatNotFoundQuery), s)
    else
      var k := found.value.value.id;
      if db(s, DeleteRows(GroupMessageTable, {k})) then
        var after := s.(groupMessages := Remove(s.groupMessages, {k}));
        RemoveShrinks(s.groupMessages, {k});
        ShrinkKeepsInv(s, after);
        Reply(Ok(1), after)
      else Reply(Err(StoreError), s)
  }

  // The single delete, as written: the message id is compared with the
  // membership table's profile column.
  const SingleFilterAsWritten: ColumnRef := MemberProfileIdColumn
  // The group delete, as written: the chat id is compared with the
  // membership table's chat column.
  const GroupFilterAsWritten: ColumnRef := MemberGroupChatIdColumn
  // The per-author delete, as written: the author id is compared with the
  // membership table's profile column (the chat condition is correct).
  const AuthorFilterAsWritten: ColumnRef := MemberProfileIdColumn

  /** `delete_single_group_message` as written: no guard; the lookup names a
      membership column, so the store refuses it and nothing is deleted,
      whatever the store holds. */
  function DeleteSingleGroupMessage(s: Store, messageId: int, db: Backend): (r: Reply<nat>)
    ensures r == Reply(Err(StoreError), s)
  {
    var conds := [Equals(SingleFilterAsWritten, messageId)];
    MembershipColumnRefused(conds);
    DeleteFirstMatching(s, conds, db)
  }

  /** `delete_single_group_message` with the lookup on the message key:
      deletes that message, or reports the group chat query error when there
      is none. */
  function DeleteSingleGroupMessageCorrected(s: Store, messageId: int, db: Backend): (r: Reply<nat>)
    ensures messageId !in s.groupMessages.rows ==> r == Reply(Err(ChatNotFoundQuery), s)
    ensures r.outcome == Err(ChatNotFoundQuery) <==> messageId !in s.groupMessages.rows
    ensures messageId in s.groupMessages.rows && r.outcome.Err? ==> r.outcome.error == StoreError
    ensures !r.outcome.Abort?
    ensures !r.outcome.Ok? ==> r.store == s
    ensures r.outcome.Ok? ==>
      && r.outcome.value == 1
      && messageId in s.groupMessages.rows
      && r.store == s.(groupMessages := Table(s.groupMessages.rows - {messageId}, s.groupMessages.next))
    ensures messageId in s.groupMessages.rows && Healthy(db) ==> r.outcome.Ok?
    ensures Inv(s) ==> Inv(r.store)
  {
    var conds := [Equals(MessageIdColumn, messageId)];
    var t := s.groupMessages;
    SatisfiesOne(0, GroupMessage(0, None, None, 0), conds[0]);
    forall k | k in t.rows
      ensures Satisfies(k, t.rows[k], conds) <==> k == messageId
    {
      SatisfiesOne(k, t.rows[k], conds[0]);
    }
    assert messageId in t.rows ==> messageId in Matching(t, conds);
    DeleteFirstMatching(s, conds, db)
  }

  /** `delete_messages_of_group` as written: guards the chat, then issues a
      delete filtered on a membership column, which the store refuses. */
  function DeleteMessagesOfGroup(s: Store, groupChatId: int, db: Backend): (r: Reply<nat>)
    ensures r.store == s
    ensures groupChatId !in s.chats.rows ==> r.outcome == Err(ChatNotFound)
    ensures groupChatId in s.chats.rows ==> r.outcome == Err(StoreError)
  {
    var chat := CheckGroupChatExists(s, groupChatId);
    if !chat.Ok? then Reply(Propagate(chat), s)
    else
      var conds := [Equals(GroupFilterAsWritten, chat.value.id)];
      MembershipColumnRefused(conds);
      DeleteMatching(s, conds, db)
  }

  /** `delete_messages_of_group` with the filter on the message's chat
      column: deletes exactly the chat's messages. */
  function DeleteMessagesOfGroupCorrected(s: Store, groupChatId: int, db: Backend): (r: Reply<nat>)
    ensures groupChatId !in s.chats.rows ==> r == Reply(Err(ChatNotFound), s)
    ensures r.outcome == Err(ChatNotFound) <==> groupChatId !in s.chats.rows
    ensures groupChatId in s.chats.rows && r.outcome.Err? ==> r.outcome.error == StoreError
    ensures !r.outcome.Abort?
    ensures !r.outcome.Ok? ==> r.store == s
    ensures r.outcome.Ok? ==>
      && groupChatId in s.chats.rows
      && r.outcome.value == |Where(s.groupMessages, InChat(groupChatId))|
      && r.store == s.(groupMessages := r.store.groupMessages)
      && RemovedWhere(s.groupMessages, r.store.groupMessages, InChat(groupChatId))
    ensures groupChatId in s.chats.rows && Healthy(db) ==> r.outcome.Ok?
    ensures Inv(s) ==> Inv(r.store)
  {
    var chat := CheckGroupChatExists(s, groupChatId);
    if !chat.Ok? then Reply(Propagate(chat), s)
    else
      ChatFilterSelectsChat(s.groupMessages, groupChatId);
      DeleteMatching(s, [Equals(ChatIdColumn, chat.value.id)], db)
  }

  /** `delete_group_messages_of_profile` as written: guards the profile and
      the chat, then issues a delete whose author condition names a
      membership column, which the store refuses. */
  function DeleteGroupMessagesOfProfile(s: Store, profileId: int, groupChatId: int, db: Backend): (r: Reply<nat>)
    ensures r.store == s
    ensures profileId !in s.profiles.rows ==> r.outcome == Abort
    ensures profileId in s.profiles.rows && groupChatId !in s.chats.rows ==> r.outcome == Err(ChatNotFound)
    ensures profileId in s.profiles.rows && groupChatId in s.chats.rows ==> r.outcome == Err(StoreError)
  {
    var author := CheckProfileExists(s, profileId);
    if !author.Ok? then Reply(Propagate(author), s)
    else
      var chat := CheckGroupChatExists(s, groupChatId);
      if !chat.Ok? then Reply(Propagate(chat), s)
      else
        var conds := [Equals(AuthorFilterAsWritten, author.value.id), Equals(ChatIdColumn, chat.value.id)];
        MembershipColumnRefused(conds);
        DeleteMatching(s, conds, db)
  }

  /** `delete_group_messages_of_profile` with the author condition on the
      message's author column: deletes exactly what the profile wrote in
      the chat. */
  function DeleteGroupMessagesOfProfileCorrected(s: Store, profileId: int, groupChatId: int, db: Backend)
    : (r: Reply<nat>)
    ensures profileId !in s.profiles.rows ==> r == Reply(Abort, s)
    ensures profileId in s.profiles.rows && groupChatId !in s.chats.rows ==> r == Reply(Err(ChatNotFound), s)
    ensures r.outcome.Abort? <==> profileId !in s.profiles.rows
    ensures r.outcome == Err(ChatNotFound) <==> profileId in s.profiles.rows && groupChatId !in s.chats.rows
    ensures profileId in s.profiles.rows && groupChatId in s.chats.rows && r.outcome.Err? ==>
      r.outcome.error == StoreError
    ensures !r.outcome.Ok? ==> r.store == s
    ensures r.outcome.Ok? ==>
      && profileId in s.profiles.rows
      && groupChatId in s.chats.rows
      && r.outcome.value == |Where(s.groupMessages, ByAuthorInChat(profileId, groupChatId))|
      && r.store == s.(groupMessages := r.store.groupMessages)
      && RemovedWhere(s.groupMessages, r.store.groupMessages, ByAuthorInChat(profileId, groupChatId))
    ensures profileId in s.profiles.rows && groupChatId in s.chats.rows && Healthy(db) ==> r.outcome.Ok?
    ensures Inv(s) ==> Inv(r.store)
  {
    var author := CheckProfileExists(s, profileId);
    if !author.Ok? then Reply(Propagate(author), s)
    else
      var chat := CheckGroupChatExists(s, groupChatId);
      if !chat.Ok? then Reply(Propagate(chat), s)
      else
        AuthorFilterSelectsAuthorInChat(s.groupMessages, profileId, groupChatId);
        DeleteMatching(s, [Equals(AuthorIdColumn, author.value.id), Equals(ChatIdColumn, chat.value.id)], db)
  }
}

=== FILE: group_chat_operations.dfy ===
/** Group chats: creation with an initial member list, the picture update,
    and deletion, which first deletes the chat's memberships but leaves its
    messages in place. The chat lookups themselves are in module Guards. */
module GroupChatOperations {
  import opened Rows
  import opened Tables
  import opened EntityStore
  import opened Guards
  import opened GroupChatMemberOperations

  /** The memberships (ids[i], chat) under the keys first, first + 1, ...,
      one per list element, repeats included. */
  function Batch(first: int, groupChatId: int, ids: seq<int>): map<int, Membership>
    decreases |ids|
  {
    if ids == [] then map[]
    else
      var last := |ids| - 1;
      Batch(first, groupChatId, ids[..last])[first + last := Membership(ids[last], groupChatId)]
  }

  /** The loop of `insert_group_chat`: for each listed id in order, look the
      profile up and insert its membership, unwrapping the insert. A missing
      profile panics inside the lookup; so does a rejected membership insert.
      The source skips an id whose lookup reports an error, but a lookup that
      cannot fail never reports one, so that path does not arise here. */
  function AttachMembers(s: Store, groupChatId: int, ids: seq<int>, db: Backend): (r: Reply<()>)
    ensures !r.outcome.Err?
    ensures r.store == s.(members := r.store.members)
    ensures s.members.next <= r.store.members.next <= s.members.next + |ids|
    ensures r.outcome.Ok? ==> r.store.members.next == s.members.next + |ids|
    ensures (exists i :: 0 <= i < |ids| && ids[i] !in s.profiles.rows) ==> r.outcome.Abort?
    ensures r.outcome.Abort? ==> r.store.members.next < s.members.next + |ids|
    ensures ((forall i :: 0 <= i < |ids| ==> ids[i] in s.profiles.rows)
             && (ids == [] || groupChatId in s.chats.rows) && Healthy(db)) ==> r.outcome.Ok?
    ensures Inv(s) ==> Inv(r.store)
    decreases |ids|
  {
    if ids == [] then Reply(Ok(()), s)
    else
      var profile := GetProfileById(s, ids[0]);
      if !profile.Ok? then Reply(Abort, s)
      else
        var added := InsertGroupChatMember(s, profile.value.id, groupChatId, db);
        if !added.outcome.Ok? then Reply(Abort, added.store)
        else
          assert forall i :: 1 <= i < |ids| ==> ids[1..][i - 1] == ids[i];
          AttachMembers(added.store, groupChatId, ids[1..], db)
  }

  /** The memberships the loop writes are the batch for the first `k` ids,
      where `k` is how far it got before it stopped. */
  lemma {:induction false} AttachMembersWritesBatch(s: Store, groupChatId: int, ids: seq<int>, db: Backend)
    ensures var r := AttachMembers(s, groupChatId, ids, db);
      var k := r.store.members.next - s.members.next;
      && 0 <= k <= |ids|
      && r.store.members.rows == s.members.rows + Batch(s.members.next, groupChatId, ids[..k])
    decreases |ids|
  {
    var r := AttachMembers(s, groupChatId, ids, db);
    var n := s.members.next;
    if ids == [] || ids[0] !in s.profiles.rows {
      assert r.store == s;
      assert Batch(n, groupChatId, ids[..0]) == map[];
    } else {
      var added := InsertGroupChatMember(s, ids[0], groupChatId, db);
      if !added.outcome.Ok? {
        assert r.store == s;
        assert Batch(n, groupChatId, ids[..0]) == map[];
      } else {
        var s1 := added.store;
        assert s1.members == Table(s.members.rows[n := Membership(ids[0], groupChatId)], n + 1);
        assert r == AttachMembers(s1, groupChatId, ids[1..], db);
        AttachMembersWritesBatch(s1, groupChatId, ids[1..], db);
        var k1 := r.store.members.next - s1.members.next;
        var k := k1 + 1;
        assert r.store.members.rows == s1.members.rows + Batch(n + 1, groupChatId, ids[1..][..k1]);
        BatchStep(s.members.rows, n, groupChatId, ids, k1);
      }
    }
  }

  /** The batch occupies exactly the keys first .. first + |ids| - 1, and
      key first + i holds the membership of ids[i]. */
  lemma {:induction false} BatchAt(first: int, groupChatId: int, ids: seq<int>)
    ensures forall k :: k in Batch(first, groupChatId, ids) <==> first <= k < first + |ids|
    ensures forall k :: first <= k < first + |ids| ==>
      Batch(first, groupChatId, ids)[k] == Membership(ids[k - first], groupChatId)
    decreases |ids|
  {
    if ids != [] {
      var last := |ids| - 1;
      var init := ids[..last];
      BatchAt(first, groupChatId, init);
      assert forall i :: 0 <= i < last ==> init[i] == ids[i];
    }
  }

  /** Inserting the first membership and then the batch of the remaining ids
      writes the batch of the whole prefix. */
  lemma BatchStep(rows: map<int, Membership>, n: int, groupChatId: int, ids: seq<int>, k1: nat)
    requires 0 <= k1 < |ids|
    ensures rows[n := Membership(ids[0], groupChatId)] + Batch(n + 1, groupChatId, ids[1..][..k1])
         == rows + Batch(n, groupChatId, ids[..k1 + 1])
  {
    BatchAt(n + 1, groupChatId, ids[1..][..k1]);
    BatchAt(n, groupChatId, ids[..k1 + 1]);
    var lhs := rows[n := Membership(ids[0], groupChatId)] + Batch(n + 1, groupChatId, ids[1..][..k1]);
    var rhs := rows + Batch(n, groupChatId, ids[..k1 + 1]);
    forall k | k in lhs
      ensures k in rhs && lhs[k] == rhs[k]
    {
      if n + 1 <= k < n + 1 + k1 {
        assert ids[1..][..k1][k - (n + 1)] == ids[..k1 + 1][k - n];
      }
    }
    assert lhs.Keys == rhs.Keys;
  }

  /** `insert_group_chat`: refuses an empty member list; otherwise inserts
      the chat (unwrapping the insert), created at `now` without a picture,
      and attaches the listed profiles to it in order. */
  function InsertGroupChat(s: Store, memberIds: seq<int>, now: Time, db: Backend): (r: Reply<Entry<GroupChat>>)
    ensures |memberIds| == 0 ==> r == Reply(Err(NoMembers), s)
    ensures r.outcome.Err? ==> r == Reply(Err(NoMembers), s)
    ensures r.outcome.Ok? ==>
      var e := r.outcome.value;
      && |memberIds| > 0
      && (forall i :: 0 <= i < |memberIds| ==> memberIds[i] in s.profiles.rows)
      && e.row == GroupChat(now, None)
      && e.id == s.chats.next
      && (Inv(s) ==> e.id !in s.chats.rows)
      && r.store.chats == Table(s.chats.rows[e.id := e.row], s.chats.next + 1)
      && r.store.members.next == s.members.next + |memberIds|
    ensures |memberIds| > 0 && (exists i :: 0 <= i < |memberIds| && memberIds[i] !in s.profiles.rows) ==>
      r.outcome.Abort?
    ensures (|memberIds| > 0 && (forall i :: 0 <= i < |memberIds| ==> memberIds[i] in s.profiles.rows)
             && Healthy(db)) ==> r.outcome.Ok?
    ensures r.store == s.(chats := r.store.chats, members := r.store.members)
    ensures r.outcome.Abort? && r.store.chats == s.chats ==> r.store == s
    ensures r.outcome.Abort? && r.store.chats != s.chats ==>
      r.store.chats == Table(s.chats.rows[s.chats.next := GroupChat(now, None)], s.chats.next + 1)
    ensures Inv(s) ==> Inv(r.store)
  {
    if |memberIds| < 1 then Reply(Err(NoMembers), s)
    else
      var chat := GroupChat(now, None);
      if !db(s, InsertRow(ChatRow(chat))) then Reply(Abort, s)
      else
        var chatId := s.chats.next;
        var created := s.(chats := Insert(s.chats, chat));
        var attached := AttachMembers(created, chatId, memberIds, db);
        if attached.outcome.Ok? then Reply(Ok(Entry(chatId, chat)), attached.store)
        else Reply(Abort, attached.store)
  }

  /** The memberships `insert_group_chat` leaves behind: all of the list on
      success, a prefix of it after a panic in the loop. */
  lemma InsertGroupChatMemberships(s: Store, memberIds: seq<int>, now: Time, db: Backend)
    ensures var r := InsertGroupChat(s, memberIds, now, db);
      && (r.outcome.Ok? ==>
            r.store.members.rows == s.members.rows + Batch(s.members.next, r.outcome.value.id, memberIds))
      && (r.outcome.Abort? && r.store.chats != s.chats ==>
            var k := r.store.members.next - s.members.next;
            && r.store.chats == Insert(s.chats, GroupChat(now, None))
            && 0 <= k < |memberIds|
            && r.store.members.rows == s.members.rows + Batch(s.members.next, s.chats.next, memberIds[..k]))
  {
    if |memberIds| >= 1 && db(s, InsertRow(ChatRow(GroupChat(now, None)))) {
      var created := s.(chats := Insert(s.chats, GroupChat(now, None)));
      AttachMembersWritesBatch(created, s.chats.next, memberIds, db);
      assert memberIds[..|memberIds|] == memberIds;
    }
  }

  /** `update_group_chat`: guards the chat, then sets its picture. */
  function UpdateGroupChat(s: Store, groupChatId: int, groupPicture: string, db: Backend): (r: Reply<Entry<GroupChat>>)
    ensures groupChatId !in s.chats.rows ==> r == Reply(Err(ChatNotFound), s)
    ensures r.outcome == Err(ChatNotFound) <==> groupChatId !in s.chats.rows
    ensures groupChatId in s.chats.rows && r.outcome.Err? ==> r.outcome.error == StoreError
    ensures !r.outcome.Abort?
    ensures !r.outcome.Ok? ==> r.store == s
    ensures r.outcome.Ok? ==>
      var e := r.outcome.value;
      && groupChatId in s.chats.rows
      && e.id == groupChatId
      && e.row.creationDate == s.chats.rows[groupChatId].creationDate
      && e.row.groupPicture == Some(groupPicture)
      && r.store == s.(chats := Table(s.chats.rows[groupChatId := e.row], s.chats.next))
    ensures groupChatId in s.chats.rows && Healthy(db) ==> r.outcome.Ok?
    ensures Inv(s) ==> Inv(r.store)
  {
    var target := GetGroupChatById(s, groupChatId);
    if !target.Ok? then Reply(Err(ChatNotFound), s)
    else
      var row := target.value.row.(groupPicture := Some(groupPicture));
      if db(s, UpdateRow(target.value.id, ChatRow(row))) then
        Reply(Ok(Entry(target.value.id, row)), s.(chats := Put(s.chats, target.value.id, row)))
      else Reply(Err(StoreError), s)
  }

  /** `delete_group_chat_by_id`: deletes the chat's memberships (through
      `delete_members_of_group`, whose failure becomes `MembersNotDeleted`),
      then the chat row. Its messages are not deleted. When the chat row
      delete is rejected, the memberships are already gone. */
  function DeleteGroupChatById(s: Store, groupChatId: int, db: Backend): (r: Reply<nat>)
    ensures groupChatId !in s.chats.rows ==> r == Reply(Err(MembersNotDeleted), s)
    ensures !r.outcome.Abort?
    ensures r.outcome.Err? ==>
      && r.outcome.error in {MembersNotDeleted, StoreError}
      && r.store == s.(members := r.store.members)
    ensures r.outcome == Err(MembersNotDeleted) ==> r.store == s
    ensures r.outcome == Err(StoreError) ==>
      && groupChatId in s.chats.rows
      && RemovedWhere(s.members, r.store.members, OfChat(groupChatId))
    ensures r.outcome.Ok? ==>
      && r.outcome.value == 1
      && groupChatId in s.chats.rows
      && r.store == s.(chats := Table(s.chats.rows - {groupChatId}, s.chats.next), members := r.store.members)
      && RemovedWhere(s.members, r.store.members, OfChat(groupChatId))
    ensures groupChatId in s.chats.rows && Healthy(db) ==> r.outcome.Ok?
    ensures Inv(s) ==> Inv(r.store)
  {
    var cleared := DeleteMembersOfGroup(s, groupChatId, db);
    if !cleared.outcome.Ok? then Reply(Err(MembersNotDeleted), cleared.store)
    else
      var s1 := cleared.store;
      var ids := KeyIfPresent(s1.chats, groupChatId);
      if db(s1, DeleteRows(GroupChatTable, ids)) then
        var after := s1.(chats := Remove(s1.chats, ids));
        RemoveShrinks(s1.chats, ids);
        ShrinkKeepsInv(s1, after);
        Reply(Ok(|ids|), after)
      else Reply(Err(StoreError), s1)
  }
}

=== FILE: guards.dfy ===
/** Existence guards: the single-row lookups by primary key that the other
    operations run before they touch a dependent row.

    The profile lookup unwraps the optional row it reads, so an absent
    profile is a panic (`Abort`), never an error. The group chat lookup turns
    an absent row into `ChatNotFound`.
 */
module Guards {
  import opened Rows
  import opened Tables
  import opened EntityStore

  /** `get_profile_by_id`. */
  function GetProfileById(s: Store, profileId: int): (r: Outcome<Entry<Profile>>)
    ensures r.Ok? <==> profileId in s.profiles.rows
    ensures r.Ok? ==> r.value.id == profileId && r.value.row == s.profiles.rows[profileId]
    ensures !r.Ok? ==> r.Abort?
  {
    if profileId in s.profiles.rows then Ok(Entry(profileId, s.profiles.rows[profileId]))
    else Abort
  }

  /** `check_profile_exists`: passes the lookup's error on and otherwise
      returns its row, so it has exactly the lookup's outcome. */
  function CheckProfileExists(s: Store, profileId: int): (r: Outcome<Entry<Profile>>)
    ensures r == GetProfileById(s, profileId)
    ensures !r.Err?
  {
    var found := GetProfileById(s, profileId);
    if !found.Ok? then Propagate(found) else Ok(found.value)
  }

  /** `get_group_chat_by_id`. */
  function GetGroupChatById(s: Store, groupChatId: int): (r: Outcome<Entry<GroupChat>>)
    ensures r.Ok? <==> groupChatId in s.chats.rows
    ensures r.Ok? ==> r.value.id == groupChatId && r.value.row == s.chats.rows[groupChatId]
    ensures !r.Ok? ==> r == Err(ChatNotFound)
  {
    if groupChatId in s.chats.rows then Ok(Entry(groupChatId, s.chats.rows[groupChatId]))
    else Err(ChatNotFound)
  }

  /** `check_group_chat_exists`: replaces any lookup error by `ChatNotFound`,
      which is the lookup's own error, so the outcome is the lookup's. */
  function CheckGroupChatExists(s: Store, groupChatId: int): (r: Outcome<Entry<GroupChat>>)
    ensures r == GetGroupChatById(s, groupChatId)
    ensures !r.Abort?
  {
    var found := GetGroupChatById(s, groupChatId);
    if found.Err? then Err(ChatNotFound) else found
  }
}

=== FILE: private_message_operations.dfy ===
/** Direct messages between two profiles. A private chat is the ordered
    (sender, recipient) pair: the queries and the bulk delete match both
    columns exactly, so the messages b sent to a are not part of the chat
    (a, b). No operation here guards the profiles; the store's foreign keys
    are the only check on them. */
module PrivateMessageOperations {
  import opened Rows
  import opened Tables
  import opened EntityStore

  /** `insert_private_message`: inserts the message as given. */
  function InsertPrivateMessage(s: Store, senderId: int, recipientId: int, content: Option<string>, db: Backend)
    : (r: Reply<Entry<PrivateMessage>>)
    ensures !r.outcome.Abort?
    ensures r.outcome.Err? ==> r == Reply(Err(StoreError), s)
    ensures r.outcome.Ok? ==>
      var e := r.outcome.value;
      && e.row == PrivateMessage(senderId, recipientId, content)
      && e.id == s.privateMessages.next
      && r.store == s.(privateMessages := Table(s.privateMessages.rows[e.id := e.row], s.privateMessages.next + 1))
      && (Inv(s) ==> e.id !in s.privateMessages.rows)
    ensures Healthy(db) ==> r.outcome.Ok?
    ensures Inv(s) ==> Inv(r.store)
  {
    var row := PrivateMessage(senderId, recipientId, content);
    if db(s, InsertRow(PrivateMessageRow(row))) then
      Reply(Ok(Entry(s.privateMessages.next, row)), s.(privateMessages := Insert(s.privateMessages, row)))
    else Reply(Err(StoreError), s)
  }

  /** `get_private_message_by_id`. */
  function GetPrivateMessageById(s: Store, messageId: int): (r: Outcome<Entry<PrivateMessage>>)
    ensures r.Ok? <==> messageId in s.privateMessages.rows
    ensures r.Ok? ==> r.value.id == messageId && r.value.row == s.privateMessages.rows[messageId]
    ensures !r.Ok? ==> r == Err(MessageNotFound)
  {
    if messageId in s.privateMessages.rows then Ok(Entry(messageId, s.privateMessages.rows[messageId]))
    else Err(MessageNotFound)
  }

  /** `update_private_message`: replaces the content of an existing message;
      sender and recipient stay. */
  function UpdatePrivateMessage(s: Store, messageId: int, content: string, db: Backend)
    : (r: Reply<Entry<PrivateMessage>>)
    ensures messageId !in s.privateMessages.rows ==> r == Reply(Err(MessageNotFound), s)
    ensures r.outcome == Err(MessageNotFound) <==> messageId !in s.privateMessages.rows
    ensures !r.outcome.Abort?
    ensures !r.outcome.Ok? ==> r.store == s
    ensures r.outcome.Err? ==> r.outcome.error in {MessageNotFound, StoreError}
    ensures r.outcome.Ok? ==>
      var e := r.outcome.value;
      var before := s.privateMessages.rows[messageId];
      && messageId in s.privateMessages.rows
      && e.id == messageId
      && e.row == PrivateMessage(before.senderId, before.recipientId, Some(content))
      && r.store == s.(privateMessages := Table(s.privateMessages.rows[messageId := e.row], s.privateMessages.next))
    ensures messageId in s.privateMessages.rows && Healthy(db) ==> r.outcome.Ok?
    ensures Inv(s) ==> Inv(r.store)
  {
    var target := GetPrivateMessageById(s, messageId);
    if !target.Ok? then Reply(Propagate(target), s)
    else
      var row := target.value.row.(content := Some(content));
      if db(s, UpdateRow(target.value.id, PrivateMessageRow(row))) then
        Reply(Ok(Entry(target.value.id, row)), s.(privateMessages := Put(s.privateMessages, target.value.id, row)))
      else Reply(Err(StoreError), s)
  }

  /** `get_private_messages_of_chat`: the messages from `senderId` to
      `recipientId`. */
  function GetPrivateMessagesOfChat(s: Store, senderId: int, recipientId: int)
    : (r: Outcome<seq<Entry<PrivateMessage>>>)
    ensures r.Ok?
    ensures Lists(r.value, s.privateMessages, Conversation(senderId, recipientId))
  {
    Ok(Select(s.privateMessages, Conversation(senderId, recipientId)))
  }

  /** `delete_private_message_by_id`: an absent id deletes nothing and is
      not an error. */
  function DeletePrivateMessageById(s: Store, messageId: int, db: Backend): (r: Reply<nat>)
    ensures !r.outcome.Abort?
    ensures r.outcome.Err? ==> r == Reply(Err(StoreError), s)
    ensures r.outcome.Ok? ==>
      && r.outcome.value == (if messageId in s.privateMessages.rows then 1 else 0)
      && r.store == s.(privateMessages := Table(s.privateMessages.rows - {messageId}, s.privateMessages.next))
    ensures Healthy(db) ==> r.outcome.Ok?
    ensures Inv(s) ==> Inv(r.store)
  {
    var ids := KeyIfPresent(s.privateMessages, messageId);
    if db(s, DeleteRows(PrivateMessageTable, ids)) then
      var after := s.(privateMessages := Remove(s.privateMessages, ids));
      RemoveShrinks(s.privateMessages, ids);
      ShrinkKeepsInv(s, after);
      Reply(Ok(|ids|), after)
    else Reply(Err(StoreError), s)
  }

  /** `delete_private_messages_of_chat`: deletes every message from
      `senderId` to `recipientId`, and no other. */
  function DeletePrivateMessagesOfChat(s: Store, senderId: int, recipientId: int, db: Backend): (r: Reply<nat>)
    ensures !r.outcome.Abort?
    ensures r.outcome.Err? ==> r == Reply(Err(StoreError), s)
    ensures r.outcome.Ok? ==>
      && r.outcome.value == |Where(s.privateMessages, Conversation(senderId, recipientId))|
      && r.store == s.(privateMessages := r.store.privateMessages)
      && RemovedWhere(s.privateMessages, r.store.privateMessages, Conversation(senderId, recipientId))
    ensures Healthy(db) ==> r.outcome.Ok?
    ensures Inv(s) ==> Inv(r.store)
  {
    var doomed := Where(s.privateMessages, Conversation(senderId, recipientId));
    if db(s, DeleteRows(PrivateMessageTable, doomed.Keys)) then
      var after := s.(privateMessages := DeleteWhere(s.privateMessages, Conversation(senderId, recipientId)));
      DeleteWhereRemoves(s.privateMessages, Conversation(senderId, recipientId));
      ShrinkKeepsInv(s, after);
      Reply(Ok(|doomed|), after)
    else Reply(Err(StoreError), s)
  }
}

=== FILE: profile_operations.dfy ===
/** Create, read, update and delete for profiles. */
module ProfileOperations {
  import opened Rows
  import opened Tables
  import opened EntityStore
  import opened Guards
  import opened Usernames

  /** `insert_profile`: checks the username rule, then inserts a profile with
      the default picture, joined at `now`. */
  function InsertProfile(
    s: Store, username: string, displayname: Option<string>, password: string,
    emailAddress: string, now: Time, db: Backend): (r: Reply<Entry<Profile>>)
    ensures !IsUsernameValid(username) ==> r == Reply(Err(InvalidUsername), s)
    ensures r.outcome == Err(InvalidUsername) <==> !IsUsernameValid(username)
    ensures !r.outcome.Abort?
    ensures r.outcome.Err? ==> r.store == s && r.outcome.error in {InvalidUsername, StoreError}
    ensures r.outcome.Ok? ==>
      var e := r.outcome.value;
      && IsUsernameValid(username)
      && e.id == s.profiles.next
      && e.row.username == username
      && e.row.displayname == displayname
      && e.row.password == password
      && e.row.emailAddress == emailAddress
      && e.row.joinDatetime == now
      && e.row.profilePicture == Some(DefaultPicture)
      && r.store == s.(profiles := r.store.profiles)
      && r.store.profiles.rows == s.profiles.rows[e.id := e.row]
      && (Inv(s) ==> e.id !in s.profiles.rows)
    ensures IsUsernameValid(username) && Healthy(db) ==> r.outcome.Ok?
    ensures Inv(s) ==> Inv(r.store)
  {
    if !IsUsernameValid(username) then Reply(Err(InvalidUsername), s)
    else
      var row := Profile(username, displayname, password, emailAddress, now, Some(DefaultPicture));
      if db(s, InsertRow(ProfileRow(row))) then
        Reply(Ok(Entry(s.profiles.next, row)), s.(profiles := Insert(s.profiles, row)))
      else Reply(Err(StoreError), s)
  }

  /** `update_profile`: guards the id, then overwrites every column except the
      key with the supplied values and stamps `joinDatetime` with `now`. The
      username rule is not applied here. */
  function UpdateProfile(
    s: Store, profileId: int, username: string, displayname: string, password: string,
    emailAddress: string, profilePicture: string, now: Time, db: Backend): (r: Reply<Entry<Profile>>)
    ensures profileId !in s.profiles.rows ==> r == Reply(Abort, s)
    ensures r.outcome.Abort? <==> profileId !in s.profiles.rows
    ensures !r.outcome.Ok? ==> r.store == s
    ensures r.outcome.Err? ==> r.outcome.error == StoreError
    ensures r.outcome.Ok? ==>
      var e := r.outcome.value;
      && profileId in s.profiles.rows
      && e.id == profileId
      && e.row.username == username
      && e.row.displayname == Some(displayname)
      && e.row.password == password
      && e.row.emailAddress == emailAddress
      && e.row.joinDatetime == now
      && e.row.profilePicture == Some(profilePicture)
      && r.store == s.(profiles := Table(s.profiles.rows[profileId := e.row], s.profiles.next))
    ensures profileId in s.profiles.rows && Healthy(db) ==> r.outcome.Ok?
    ensures Inv(s) ==> Inv(r.store)
  {
    var target := CheckProfileExists(s, profileId);
    if !target.Ok? then Reply(Propagate(target), s)
    else
      var row := Profile(username, Some(displayname), password, emailAddress, now, Some(profilePicture));
      if db(s, UpdateRow(target.value.id, ProfileRow(row))) then
        Reply(Ok(Entry(target.value.id, row)), s.(profiles := Put(s.profiles, target.value.id, row)))
      else Reply(Err(StoreError), s)
  }

  /** `get_profile_by_username`: the first profile with that username (the
      lowest key when several match); none is a panic. */
  function GetProfileByUsername(s: Store, username: string): (r: Outcome<Entry<Profile>>)
    ensures r.Ok? <==> exists k :: k in s.profiles.rows && s.profiles.rows[k].username == username
    ensures !r.Err?
    ensures r.Ok? ==>
      && r.value.row.username == username
      && r.value.id in s.profiles.rows
      && s.profiles.rows[r.value.id] == r.value.row
      && forall k :: k in s.profiles.rows && s.profiles.rows[k].username == username ==> r.value.id <= k
  {
    match First(s.profiles, WithUsername(username))
    case None => Abort
    case Some(e) => Ok(e)
  }

  /** `delete_profile_by_id`: deletes that profile row only; an absent id
      deletes nothing and is not an error. Memberships, group messages and
      private messages of the profile stay. */
  function DeleteProfileById(s: Store, profileId: int, db: Backend): (r: Reply<nat>)
    ensures !r.outcome.Abort?
    ensures r.outcome.Err? ==> r == Reply(Err(StoreError), s)
    ensures r.outcome.Ok? ==>
      && r.outcome.value == (if profileId in s.profiles.rows then 1 else 0)
      && r.store == s.(profiles := Table(s.profiles.rows - {profileId}, s.profiles.next))
    ensures Healthy(db) ==> r.outcome.Ok?
    ensures Inv(s) ==> Inv(r.store)
  {
    var ids := KeyIfPresent(s.profiles, profileId);
    if db(s, DeleteRows(ProfileTable, ids)) then
      var after := s.(profiles := Remove(s.profiles, ids));
      RemoveShrinks(s.profiles, ids);
      ShrinkKeepsInv(s, after);
      Reply(Ok(|ids|), after)
    else Reply(Err(StoreError), s)
  }
}

=== FILE: properties.dfy ===
/** Properties that relate several operations: what a query returns after a
    write, and what a second call does after a first. */
module Properties {
  import opened Rows
  import opened Tables
  import opened EntityStore
  import opened Guards
  import opened Usernames
  import opened ProfileOperations
  import opened GroupChatMemberOperations
  import opened GroupChatOperations
  import opened GroupChatMessageOperations
  import opened PrivateMessageOperations

  /** A backend that accepts every write. */
  function AcceptAll(): (db: Backend)
    ensures Healthy(db)
  {
    (s: Store, w: Write) => true
  }

  // ---------------------------------------------------------------- profiles

  /** A created profile is found under the key it was given. */
  lemma InsertThenGetProfile(
    s: Store, username: string, displayname: Option<string>, password: string,
    emailAddress: string, now: Time, db: Backend)
    requires Inv(s)
    ensures var r := InsertProfile(s, username, displayname, password, emailAddress, now, db);
      r.outcome.Ok? ==>
        && GetProfileById(r.store, r.outcome.value.id) == Ok(r.outcome.value)
        && forall k :: k in s.profiles.rows ==> GetProfileById(r.store, k) == GetProfileById(s, k)
  {
  }

  /** A created profile whose username was free is the one the username
      lookup finds. */
  lemma InsertThenGetProfileByUsername(
    s: Store, username: string, displayname: Option<string>, password: string,
    emailAddress: string, now: Time, db: Backend)
    requires Inv(s)
    requires forall k :: k in s.profiles.rows ==> s.profiles.rows[k].username != username
    ensures var r := InsertProfile(s, username, displayname, password, emailAddress, now, db);
      r.outcome.Ok? ==> GetProfileByUsername(r.store, username) == Ok(r.outcome.value)
  {
    var r := InsertProfile(s, username, displayname, password, emailAddress, now, db);
    if r.outcome.Ok? {
      var e := r.outcome.value;
      assert e.id in r.store.profiles.rows && r.store.profiles.rows[e.id].username == username;
      var found := GetProfileByUsername(r.store, username);
      assert found.Ok?;
      assert found.value.id == e.id;
    }
  }

  /** The update writes what the lookup then returns, whatever the supplied
      username: the creation rule is not checked again. */
  lemma UpdateThenGetProfile(
    s: Store, profileId: int, username: string, displayname: string, password: string,
    emailAddress: string, profilePicture: string, now: Time, db: Backend)
    requires profileId in s.profiles.rows && Healthy(db)
    ensures var r := UpdateProfile(s, profileId, username, displayname, password, emailAddress, profilePicture, now, db);
      && r.outcome.Ok?
      && GetProfileById(r.store, profileId)
         == Ok(Entry(profileId, Profile(username, Some(displayname), password, emailAddress, now, Some(profilePicture))))
  {
  }

  /** A username the creation rule refuses is accepted by the update. */
  lemma UpdateProfileBypassesUsernameRule()
    ensures var s := Store(Table(map[1 := Profile("ann", None, "h", "a@x", 0, Some(DefaultPicture))], 2),
                           Empty(), Empty(), Empty(), Empty());
      var r := UpdateProfile(s, 1, "a b", "Ann", "h", "a@x", "p", 5, AcceptAll());
      && !IsUsernameValid("a b")
      && InsertProfile(s, "a b", None, "h", "a@x", 5, AcceptAll()).outcome == Err(InvalidUsername)
      && r.outcome.Ok?
      && r.store.profiles.rows[1].username == "a b"
  {
    assert IsWhitespace("a b"[1]);
  }

  /** A deleted profile is gone: looking it up panics, and deleting it again
      succeeds with a count of zero. */
  lemma DeleteProfileTwice(s: Store, profileId: int, db: Backend)
    requires profileId in s.profiles.rows && Healthy(db)
    ensures var first := DeleteProfileById(s, profileId, db);
      var second := DeleteProfileById(first.store, profileId, db);
      && first.outcome == Ok(1)
      && GetProfileById(first.store, profileId) == Abort
      && second.outcome == Ok(0)
      && second.store == first.store
  {
  }

  // ------------------------------------------------------------- group chats

  /** The membership listing `insert_group_chat` produces: the entries
      (first + i, (ids[i], chat)) in list order. */
  function BatchEntries(first: int, groupChatId: int, ids: seq<int>): (r: seq<Entry<Membership>>)
    ensures |r| == |ids|
    ensures forall i :: 0 <= i < |ids| ==> r[i] == Entry(first + i, Membership(ids[i], groupChatId))
  {
    seq(|ids|, i requires 0 <= i < |ids| => Entry(first + i, Membership(ids[i], groupChatId)))
  }

  /** Adding a batch to rows of other chats: the chat's listing is the batch. */
  lemma {:induction false} BatchIsListing(
    t: Table<Membership>, older: map<int, Membership>, n: int, groupChatId: int, ids: seq<int>)
    requires t.rows == older + Batch(n, groupChatId, ids)
    requires forall k :: k in older ==> k < n && older[k].groupChatId != groupChatId
    ensures Lists(BatchEntries(n, groupChatId, ids), t, OfChat(groupChatId))
  {
    var expected := BatchEntries(n, groupChatId, ids);
    var batch := Batch(n, groupChatId, ids);
    BatchAt(n, groupChatId, ids);
    forall i | 0 <= i < |expected|
      ensures expected[i].id in t.rows && expected[i].row == t.rows[expected[i].id]
      ensures OfChat(groupChatId)(expected[i].row)
    {
      assert expected[i].id == n + i && n + i in batch;
    }
    forall k | k in t.rows && OfChat(groupChatId)(t.rows[k])
      ensures k in Ids(expected)
    {
      if k !in batch {
        assert false;
      }
      assert Ids(expected)[k - n] == k;
    }
  }

  /** Right after `insert_group_chat`, the new chat's members are exactly the
      listed profiles, in list order, one membership per list element
      (repeats included), under consecutive fresh keys. */
  lemma InsertGroupChatThenMembers(s: Store, memberIds: seq<int>, now: Time, db: Backend)
    requires Inv(s)
    ensures var r := InsertGroupChat(s, memberIds, now, db);
      r.outcome.Ok? ==>
        GetMembersOfGroup(r.store, r.outcome.value.id)
        == Ok(BatchEntries(s.members.next, r.outcome.value.id, memberIds))
  {
    var r := InsertGroupChat(s, memberIds, now, db);
    if r.outcome.Ok? {
      var c := r.outcome.value.id;
      InsertGroupChatMemberships(s, memberIds, now, db);
      BatchIsListing(r.store.members, s.members.rows, s.members.next, c, memberIds);
      ListsUnique(GetMembersOfGroup(r.store, c).value, BatchEntries(s.members.next, c, memberIds),
                  r.store.members, OfChat(c));
    }
  }

  /** Listing the same profile twice gives it two memberships. */
  lemma RepeatedMemberGivesTwoMemberships(s: Store, profileId: int, now: Time, db: Backend)
    requires Inv(s) && profileId in s.profiles.rows && Healthy(db)
    ensures var r := InsertGroupChat(s, [profileId, profileId], now, db);
      && r.outcome.Ok?
      && var listed := GetMembersOfGroup(r.store, r.outcome.value.id);
      && listed.Ok?
      && |listed.value| == 2
      && listed.value[0].row == listed.value[1].row == Membership(profileId, r.outcome.value.id)
      && listed.value[0].id != listed.value[1].id
  {
    InsertGroupChatThenMembers(s, [profileId, profileId], now, db);
  }

  /** Setting a picture is seen by the next lookup; the creation date stays. */
  lemma UpdateThenGetGroupChat(s: Store, groupChatId: int, groupPicture: string, db: Backend)
    requires groupChatId in s.chats.rows && Healthy(db)
    ensures var r := UpdateGroupChat(s, groupChatId, groupPicture, db);
      GetGroupChatById(r.store, groupChatId)
      == Ok(Entry(groupChatId, GroupChat(s.chats.rows[groupChatId].creationDate, Some(groupPicture))))
  {
  }

  /** Deleting a chat cascades to its memberships only: afterwards both the
      member and the message listings report the chat missing, yet its
      messages are all still stored. */
  lemma DeleteGroupChatKeepsMessages(s: Store, groupChatId: int, db: Backend)
    requires groupChatId in s.chats.rows && Healthy(db)
    ensures var r := DeleteGroupChatById(s, groupChatId, db);
      && r.outcome == Ok(1)
      && GetMembersOfGroup(r.store, groupChatId) == Err(ChatNotFound)
      && GetMessagesOfGroup(r.store, groupChatId) == Err(ChatNotFound)
      && Where(r.store.groupMessages, InChat(groupChatId)) == Where(s.groupMessages, InChat(groupChatId))
      && Where(r.store.members, OfChat(groupChatId)) == map[]
  {
  }

  // ------------------------------------------------------------- memberships

  /** A new membership is listed among the chat's members, last. */
  lemma InsertMemberThenListed(s: Store, profileId: int, groupChatId: int, db: Backend)
    requires Inv(s)
    ensures var r := InsertGroupChatMember(s, profileId, groupChatId, db);
      r.outcome.Ok? ==>
        var listed := GetMembersOfGroup(r.store, groupChatId);
        && listed.Ok?
        && |listed.value| > 0
        && listed.value[|listed.value| - 1] == r.outcome.value
  {
    var r := InsertGroupChatMember(s, profileId, groupChatId, db);
    if r.outcome.Ok? {
      var e := r.outcome.value;
      var listed := GetMembersOfGroup(r.store, groupChatId).value;
      ListedLast(listed, r.store.members, OfChat(groupChatId), e.id);
    }
  }

  /** After the chat's memberships are deleted it has no members. */
  lemma DeleteMembersThenNoneListed(s: Store, groupChatId: int, db: Backend)
    ensures var r := DeleteMembersOfGroup(s, groupChatId, db);
      r.outcome.Ok? ==> GetMembersOfGroup(r.store, groupChatId) == Ok([])
  {
    var r := DeleteMembersOfGroup(s, groupChatId, db);
    if r.outcome.Ok? {
      var listed := GetMembersOfGroup(r.store, groupChatId).value;
      ListsNothing(listed, r.store.members, OfChat(groupChatId));
    }
  }

  /** A single delete removes one membership of the pair: the pair's count
      drops by exactly one and every other row of it is still there. */
  lemma DeleteSingleMembershipCount(s: Store, groupChatId: int, profileId: int, db: Backend)
    ensures var r := DeleteSingleMembership(s, groupChatId, profileId, db);
      r.outcome.Ok? ==>
        var before := Where(s.members, OfPair(profileId, groupChatId));
        var after := Where(r.store.members, OfPair(profileId, groupChatId));
        && |after| == |before| - 1
        && after.Keys <= before.Keys
        && forall k :: k in after ==> after[k] == before[k]
  {
    var r := DeleteSingleMembership(s, groupChatId, profileId, db);
    if r.outcome.Ok? {
      var k :| DropsMembership(s, r.store, k) && LowestOfPair(s, k, profileId, groupChatId);
      assert r.store.members == Remove(s.members, {k});
      WhereRemoveOne(s.members, OfPair(profileId, groupChatId), k);
    }
  }

  // ---------------------------------------------------------- group messages

  /** A new message is listed under its chat, last, and under its author in
      that chat. */
  lemma InsertMessageThenListed(s: Store, authorId: int, groupChatId: int, content: string, db: Backend)
    requires Inv(s)
    ensures var r := InsertGroupChatMessage(s, authorId, groupChatId, content, db);
      r.outcome.Ok? ==>
        var inChat := GetMessagesOfGroup(r.store, groupChatId);
        var byAuthor := GetGroupMessagesOfProfile(r.store, authorId, groupChatId);
        && inChat.Ok? && byAuthor.Ok?
        && |inChat.value| > 0
        && inChat.value[|inChat.value| - 1] == r.outcome.value
        && r.outcome.value in byAuthor.value
  {
    var r := InsertGroupChatMessage(s, authorId, groupChatId, content, db);
    if r.outcome.Ok? {
      var e := r.outcome.value;
      var t := r.store.groupMessages;
      ListedLast(GetMessagesOfGroup(r.store, groupChatId).value, t, InChat(groupChatId), e.id);
      ListedRow(GetGroupMessagesOfProfile(r.store, authorId, groupChatId).value, t,
                ByAuthorInChat(authorId, groupChatId), e.id);
    }
  }

  /** The update is seen by the next lookup; nothing but the content moved. */
  lemma UpdateThenGetGroupMessage(s: Store, messageId: int, content: string, db: Backend)
    requires messageId in s.groupMessages.rows && Healthy(db)
    ensures var r := UpdateGroupMessage(s, messageId, content, db);
      GetGroupMessageById(r.store, messageId)
      == Ok(Entry(messageId, s.groupMessages.rows[messageId].(content := Some(content))))
  {
  }

  /** Deleting an existing message as written fails and keeps it; with the
      lookup on the message key it is deleted. */
  lemma DeleteSingleGroupMessageKeepsMessage(s: Store, messageId: int)
    requires messageId in s.groupMessages.rows
    ensures DeleteSingleGroupMessage(s, messageId, AcceptAll()) == Reply(Err(StoreError), s)
    ensures var fixed := DeleteSingleGroupMessageCorrected(s, messageId, AcceptAll());
      && fixed.outcome == Ok(1)
      && GetGroupMessageById(fixed.store, messageId) == Err(GroupMessageNotFound)
  {
  }

  /** Deleting the messages of a chat that has one, as written, fails and
      the chat still lists the message; with the filter on the message's
      chat column the listing is empty afterwards. */
  lemma DeleteMessagesOfGroupKeepsMessages(s: Store, messageId: int)
    requires messageId in s.groupMessages.rows
    requires s.groupMessages.rows[messageId].chatId in s.chats.rows
    ensures var c := s.groupMessages.rows[messageId].chatId;
      var asWritten := DeleteMessagesOfGroup(s, c, AcceptAll());
      && asWritten == Reply(Err(StoreError), s)
      && GetMessagesOfGroup(asWritten.store, c).Ok?
      && Entry(messageId, s.groupMessages.rows[messageId]) in GetMessagesOfGroup(asWritten.store, c).value
    ensures var c := s.groupMessages.rows[messageId].chatId;
      var fixed := DeleteMessagesOfGroupCorrected(s, c, AcceptAll());
      && fixed.outcome.Ok?
      && fixed.outcome.value > 0
      && GetMessagesOfGroup(fixed.store, c) == Ok([])
  {
    var c := s.groupMessages.rows[messageId].chatId;
    ListedRow(GetMessagesOfGroup(s, c).value, s.groupMessages, InChat(c), messageId);
    assert messageId in Where(s.groupMessages, InChat(c));
    var fixed := DeleteMessagesOfGroupCorrected(s, c, AcceptAll());
    ListsNothing(GetMessagesOfGroup(fixed.store, c).value, fixed.store.groupMessages, InChat(c));
  }

  /** Deleting what an existing author wrote in an existing chat, as
      written, fails and keeps the message; with the author condition on the
      message's author column the author's listing is empty afterwards. */
  lemma DeleteGroupMessagesOfProfileKeepsMessages(s: Store, messageId: int)
    requires messageId in s.groupMessages.rows
    requires s.groupMessages.rows[messageId].authorId in s.profiles.rows
    requires s.groupMessages.rows[messageId].chatId in s.chats.rows
    ensures var g := s.groupMessages.rows[messageId];
      var asWritten := DeleteGroupMessagesOfProfile(s, g.authorId, g.chatId, AcceptAll());
      && asWritten == Reply(Err(StoreError), s)
      && messageId in asWritten.store.groupMessages.rows
    ensures var g := s.groupMessages.rows[messageId];
      var fixed := DeleteGroupMessagesOfProfileCorrected(s, g.authorId, g.chatId, AcceptAll());
      && fixed.outcome.Ok?
      && fixed.outcome.value > 0
      && messageId !in fixed.store.groupMessages.rows
      && GetGroupMessagesOfProfile(fixed.store, g.authorId, g.chatId) == Ok([])
  {
    var g := s.groupMessages.rows[messageId];
    assert messageId in Where(s.groupMessages, ByAuthorInChat(g.authorId, g.chatId));
    var fixed := DeleteGroupMessagesOfProfileCorrected(s, g.authorId, g.chatId, AcceptAll());
    ListsNothing(GetGroupMessagesOfProfile(fixed.store, g.authorId, g.chatId).value, fixed.store.groupMessages,
                 ByAuthorInChat(g.authorId, g.chatId));
  }

  // -------------------------------------------------------- private messages

  /** A message from a to b belongs to the chat (a, b) and, when a and b
      differ, not to the chat (b, a). */
  lemma PrivateChatIsDirected(s: Store, senderId: int, recipientId: int, content: Option<string>, db: Backend)
    requires Inv(s) && senderId != recipientId
    ensures var r := InsertPrivateMessage(s, senderId, recipientId, content, db);
      r.outcome.Ok? ==>
        && r.outcome.value in GetPrivateMessagesOfChat(r.store, senderId, recipientId).value
        && r.outcome.value !in GetPrivateMessagesOfChat(r.store, recipientId, senderId).value
  {
    var r := InsertPrivateMessage(s, senderId, recipientId, content, db);
    if r.outcome.Ok? {
      var e := r.outcome.value;
      ListedRow(GetPrivateMessagesOfChat(r.store, senderId, recipientId).value, r.store.privateMessages,
                Conversation(senderId, recipientId), e.id);
    }
  }

  /** The update is seen by the next lookup; sender and recipient stay. */
  lemma UpdateThenGetPrivateMessage(s: Store, messageId: int, content: string, db: Backend)
    requires messageId in s.privateMessages.rows && Healthy(db)
    ensures var r := UpdatePrivateMessage(s, messageId, content, db);
      GetPrivateMessageById(r.store, messageId)
      == Ok(Entry(messageId, s.privateMessages.rows[messageId].(content := Some(content))))
  {
  }

  /** After a conversation is deleted it lists nothing, and the reverse
      direction is untouched. */
  lemma DeleteConversationThenEmpty(s: Store, senderId: int, recipientId: int, db: Backend)
    requires senderId != recipientId
    ensures var r := DeletePrivateMessagesOfChat(s, senderId, recipientId, db);
      r.outcome.Ok? ==>
        && GetPrivateMessagesOfChat(r.store, senderId, recipientId) == Ok([])
        && Where(r.store.privateMessages, Conversation(recipientId, senderId))
           == Where(s.privateMessages, Conversation(recipientId, senderId))
  {
    var r := DeletePrivateMessagesOfChat(s, senderId, recipientId, db);
    if r.outcome.Ok? {
      var t := r.store.privateMessages;
      ListsNothing(GetPrivateMessagesOfChat(r.store, senderId, recipientId).value, t, Conversation(senderId, recipientId));
      RemovedWhereKeeps(s.privateMessages, t, Conversation(senderId, recipientId), Conversation(recipientId, senderId));
    }
  }

  /** Deleting a message by key twice: the first call removes it, the
      second deletes nothing and is not an error. */
  lemma DeletePrivateMessageTwice(s: Store, messageId: int, db: Backend)
    requires messageId in s.privateMessages.rows && Healthy(db)
    ensures var first := DeletePrivateMessageById(s, messageId, db);
      var second := DeletePrivateMessageById(first.store, messageId, db);
      && first.outcome == Ok(1)
      && GetPrivateMessageById(first.store, messageId) == Err(MessageNotFound)
      && second.outcome == Ok(0)
      && second.store == first.store
  {
  }
}

=== FILE: rows.dfy ===
/** The five record kinds of the messaging backend, one datatype per table.

    A row does not carry its own primary key: a table maps the key to the row
    (see module Tables), and query results pair the two in an `Entry`. Columns
    follow the entity structs and the initial-tables migration; `DATETIME`
    columns are an opaque `Time`.
 */
module Rows {

  datatype Option<+T> = None | Some(value: T)

  /** A point in time. The model never computes with it: operations receive
      the creation or update instant as a parameter and store it unchanged. */
  type Time = int

  /** The picture every new profile starts with. */
  const DefaultPicture: string := "default"

  /** Table `profile`. */
  datatype Profile = Profile(
    username: string,
    displayname: Option<string>,
    password: string,
    emailAddress: string,
    joinDatetime: Time,
    profilePicture: Option<string>)

  /** Table `group_chat`. */
  datatype GroupChat = GroupChat(creationDate: Time, groupPicture: Option<string>)

  /** Table `group_chat_member`: a join row between a profile and a group chat. */
  datatype Membership = Membership(profileId: int, groupChatId: int)

  /** Table `group_chat_message`. `sendTime` is `None` when the inserting code
      supplied no value for the column. */
  datatype GroupMessage = GroupMessage(
    authorId: int,
    sendTime: Option<Time>,
    content: Option<string>,
    chatId: int)

  /** Table `private_message`. */
  datatype PrivateMessage = PrivateMessage(senderId: int, recipientId: int, content: Option<string>)
}

=== FILE: tables.dfy ===
/** Tables with an AUTO_INCREMENT integer primary key, and the three store
    primitives every operation is built from: insert with a fresh key,
    filtered listing in key order, and filtered delete.
 */
module Tables {
  import opened Rows

  /** A row together with its primary key, as a query hands it back. */
  datatype Entry<+R> = Entry(id: int, row: R)

  /** Rows by primary key, and the key the next insert receives. */
  datatype Table<R> = Table(rows: map<int, R>, next: int)

  /** Every key in use lies below the counter, so the counter is always fresh. */
  ghost predicate Valid<R>(t: Table<R>) {
    forall k :: k in t.rows ==> k < t.next
  }

  /** A freshly created table; AUTO_INCREMENT starts at 1. */
  function Empty<R>(): (t: Table<R>)
    ensures Valid(t) && t.rows == map[]
  {
    Table(map[], 1)
  }

  /** Insert `row` under the counter and advance it. */
  function Insert<R>(t: Table<R>, row: R): Table<R> {
    Table(t.rows[t.next := row], t.next + 1)
  }

  /** Overwrite the row stored under `id`. */
  function Put<R>(t: Table<R>, id: int, row: R): Table<R> {
    t.(rows := t.rows[id := row])
  }

  /** Delete the rows whose keys are in `ids`; the counter is never rewound. */
  function Remove<R>(t: Table<R>, ids: set<int>): Table<R> {
    t.(rows := t.rows - ids)
  }

  /** The rows a `WHERE p` filter selects. */
  function Where<R>(t: Table<R>, p: R -> bool): map<int, R> {
    map k | k in t.rows && p(t.rows[k]) :: t.rows[k]
  }

  /** `DELETE ... WHERE p`. */
  function DeleteWhere<R>(t: Table<R>, p: R -> bool): Table<R> {
    Remove(t, Where(t, p).Keys)
  }

  /** `after` is `t` with exactly the rows satisfying `p` deleted: every
      other row is still there, unchanged, and the counter did not move. */
  ghost predicate RemovedWhere<R>(t: Table<R>, after: Table<R>, p: R -> bool) {
    && after.next == t.next
    && (forall k :: k in after.rows <==> k in t.rows && !p(t.rows[k]))
    && (forall k :: k in after.rows ==> after.rows[k] == t.rows[k])
  }

  /** `after` keeps some of the rows of `t`, unchanged, and its counter. */
  ghost predicate Shrinks<R>(t: Table<R>, after: Table<R>) {
    && after.next == t.next
    && forall k :: k in after.rows ==> k in t.rows && after.rows[k] == t.rows[k]
  }

  /** `DeleteWhere` deletes exactly the rows the filter selects. */
  lemma DeleteWhereRemoves<R>(t: Table<R>, p: R -> bool)
    ensures RemovedWhere(t, DeleteWhere(t, p), p)
    ensures Shrinks(t, DeleteWhere(t, p))
  {
  }

  lemma RemoveShrinks<R>(t: Table<R>, ids: set<int>)
    ensures Shrinks(t, Remove(t, ids))
    ensures forall k :: k in Remove(t, ids).rows <==> k in t.rows && k !in ids
  {
  }

  /** Deleting one selected row takes exactly that row out of the selection. */
  lemma WhereRemoveOne<R>(t: Table<R>, p: R -> bool, k: int)
    requires k in t.rows && p(t.rows[k])
    ensures Where(Remove(t, {k}), p) == Where(t, p) - {k}
    ensures |Where(Remove(t, {k}), p)| == |Where(t, p)| - 1
  {
    var before := Where(t, p);
    var after := Where(Remove(t, {k}), p);
    assert after == before - {k};
    assert after.Keys == before.Keys - {k};
    assert k in before.Keys;
    assert |after| == |after.Keys| && |before| == |before.Keys|;
  }

  /** Deleting rows keeps the counter above the keys that remain. */
  lemma ShrinksValid<R>(t: Table<R>, after: Table<R>)
    requires Valid(t) && Shrinks(t, after)
    ensures Valid(after)
  {
  }

  /** A filtered delete leaves every row of a disjoint filter in place. */
  lemma RemovedWhereKeeps<R>(t: Table<R>, after: Table<R>, p: R -> bool, q: R -> bool)
    requires RemovedWhere(t, after, p)
    requires forall k :: k in t.rows && q(t.rows[k]) ==> !p(t.rows[k])
    ensures Where(after, q) == Where(t, q)
  {
    forall k
      ensures k in Where(after, q) <==> k in Where(t, q)
    {
      if k in after.rows {
        assert after.rows[k] == t.rows[k];
      }
    }
    assert Where(after, q).Keys == Where(t, q).Keys;
    forall k | k in Where(after, q)
      ensures Where(after, q)[k] == Where(t, q)[k]
    {
      assert after.rows[k] == t.rows[k];
    }
  }

  predicate Increasing(s: seq<int>) {
    forall i, j :: 0 <= i < j < |s| ==> s[i] < s[j]
  }

  /** Dropping the first element keeps a sequence increasing. */
  lemma IncreasingTail(s: seq<int>)
    requires Increasing(s) && s != []
    ensures Increasing(s[1..])
  {
    forall i, j | 0 <= i < j < |s| - 1
      ensures s[1..][i] < s[1..][j]
    {
      assert s[1..][i] == s[i + 1] && s[1..][j] == s[j + 1];
    }
  }

  /** Putting a smaller element in front keeps a sequence increasing. */
  lemma IncreasingCons(x: int, s: seq<int>)
    requires Increasing(s)
    requires forall y :: y in s ==> x < y
    ensures Increasing([x] + s)
  {
    var r := [x] + s;
    forall i, j | 0 <= i < j < |r|
      ensures r[i] < r[j]
    {
      assert r[j] == s[j - 1] && s[j - 1] in s;
      if i > 0 {
        assert r[i] == s[i - 1];
      }
    }
  }

  predicate IsMin(m: int, s: set<int>) {
    m in s && forall x :: x in s ==> m <= x
  }

  lemma HasElement(s: set<int>)
    requires s != {}
    ensures exists x :: x in s
  {
    if forall x :: x !in s {
      assert false;
    }
  }

  lemma {:induction false} MinExists(s: set<int>)
    requires s != {}
    ensures exists m :: IsMin(m, s)
    decreases |s|
  {
    HasElement(s);
    var x :| x in s;
    if s == {x} {
      assert IsMin(x, s);
    } else {
      MinExists(s - {x});
      var m :| IsMin(m, s - {x});
      var least := if x < m then x else m;
      forall y | y in s
        ensures least <= y
      {
        if y != x {
          assert y in s - {x};
        }
      }
      assert IsMin(least, s);
    }
  }

  /** The keys of `s` in increasing order. */
  function Ascending(s: set<int>): (r: seq<int>)
    ensures forall x :: x in r <==> x in s
    ensures Increasing(r)
    ensures |r| == |s|
    decreases |s|
  {
    if s == {} then []
    else
      MinExists(s);
      var m :| IsMin(m, s);
      [m] + Ascending(s - {m})
  }

  /** In an increasing sequence, the tail holds exactly the elements other
      than the head. */
  lemma IncreasingTailElements(s: seq<int>, x: int)
    requires Increasing(s) && s != []
    ensures x in s[1..] <==> x in s && x != s[0]
  {
    if x in s[1..] {
      var i :| 0 <= i < |s| - 1 && s[1..][i] == x;
      assert s[0] < s[i + 1];
    }
    if x in s && x != s[0] {
      var i :| 0 <= i < |s| && s[i] == x;
      assert s[1..][i - 1] == x;
    }
  }

  /** The head of an increasing sequence is its least element. */
  lemma IncreasingHeadLeast(s: seq<int>, x: int)
    requires Increasing(s) && x in s
    ensures s[0] <= x
  {
    var i :| 0 <= i < |s| && s[i] == x;
    assert i == 0 || s[0] < s[i];
  }

  /** Two increasing sequences with the same elements are equal. */
  lemma {:induction false} IncreasingUnique(a: seq<int>, b: seq<int>)
    requires Increasing(a) && Increasing(b)
    requires forall x :: x in a <==> x in b
    ensures a == b
    decreases |a|
  {
    assert a == [] <==> b == [] by {
      if a != [] {
        assert a[0] in a;
      }
      if b != [] {
        assert b[0] in b;
      }
    }
    if a != [] {
      assert a[0] in b && b[0] in a;
      IncreasingHeadLeast(a, b[0]);
      IncreasingHeadLeast(b, a[0]);
      forall x
        ensures x in a[1..] <==> x in b[1..]
      {
        IncreasingTailElements(a, x);
        IncreasingTailElements(b, x);
      }
      IncreasingTail(a);
      IncreasingTail(b);
      IncreasingUnique(a[1..], b[1..]);
      assert a == [a[0]] + a[1..];
      assert b == [b[0]] + b[1..];
    }
  }

  /** The keys of a listing, in listing order. */
  function Ids<R>(r: seq<Entry<R>>): (ids: seq<int>)
    ensures |ids| == |r| && forall i :: 0 <= i < |r| ==> ids[i] == r[i].id
  {
    seq(|r|, i requires 0 <= i < |r| => r[i].id)
  }

  /** `r` lists exactly the rows of `t` that satisfy `p`, each with its key,
      in increasing key order and without repetition. */
  ghost predicate Lists<R>(r: seq<Entry<R>>, t: Table<R>, p: R -> bool) {
    && (forall i :: 0 <= i < |r| ==> r[i].id in t.rows && r[i].row == t.rows[r[i].id] && p(r[i].row))
    && (forall k :: k in t.rows && p(t.rows[k]) ==> k in Ids(r))
    && Increasing(Ids(r))
  }

  /** A listing specification admits one answer only. */
  lemma ListsUnique<R>(a: seq<Entry<R>>, b: seq<Entry<R>>, t: Table<R>, p: R -> bool)
    requires Lists(a, t, p) && Lists(b, t, p)
    ensures a == b
  {
    var ia, ib := Ids(a), Ids(b);
    forall x
      ensures x in ia <==> x in ib
    {
      if x in ia {
        var i :| 0 <= i < |ia| && ia[i] == x;
        assert a[i].id == x;
      }
      if x in ib {
        var i :| 0 <= i < |ib| && ib[i] == x;
        assert b[i].id == x;
      }
    }
    IncreasingUnique(ia, ib);
    assert |a| == |b|;
    forall i | 0 <= i < |a|
      ensures a[i] == b[i]
    {
      assert ia[i] == ib[i];
    }
  }

  /** Every selected row appears in a listing, with its key. */
  lemma ListedRow<R>(r: seq<Entry<R>>, t: Table<R>, p: R -> bool, k: int)
    requires Lists(r, t, p)
    requires k in t.rows && p(t.rows[k])
    ensures Entry(k, t.rows[k]) in r
  {
    assert k in Ids(r);
    var i :| 0 <= i < |r| && Ids(r)[i] == k;
    assert r[i] == Entry(k, t.rows[k]);
  }

  /** The position of a selected row in a listing. */
  lemma ListedAt<R>(r: seq<Entry<R>>, t: Table<R>, p: R -> bool, k: int) returns (i: int)
    requires Lists(r, t, p)
    requires k in t.rows && p(t.rows[k])
    ensures 0 <= i < |r| && r[i] == Entry(k, t.rows[k])
  {
    assert k in Ids(r);
    i :| 0 <= i < |r| && Ids(r)[i] == k;
  }

  /** A listing of a filter that selects nothing is empty. */
  lemma ListsNothing<R>(r: seq<Entry<R>>, t: Table<R>, p: R -> bool)
    requires Lists(r, t, p)
    requires Where(t, p) == map[]
    ensures r == []
  {
    ListsCount(r, t, p);
  }

  /** A selected row under the highest key of the table comes last. */
  lemma ListedLast<R>(r: seq<Entry<R>>, t: Table<R>, p: R -> bool, k: int)
    requires Lists(r, t, p)
    requires k in t.rows && p(t.rows[k])
    requires forall j :: j in t.rows ==> j <= k
    ensures |r| > 0 && r[|r| - 1] == Entry(k, t.rows[k])
  {
    assert k in Ids(r);
    var i :| 0 <= i < |r| && Ids(r)[i] == k;
    var last := |r| - 1;
    assert Ids(r)[last] == r[last].id && r[last].id in t.rows;
    assert i <= last ==> Ids(r)[i] <= Ids(r)[last];
  }

  /** The rows of `m` under the keys `ks`, in that order. */
  function EntriesAt<R>(m: map<int, R>, ks: seq<int>): (r: seq<Entry<R>>)
    requires forall i :: 0 <= i < |ks| ==> ks[i] in m
    ensures |r| == |ks| && forall i :: 0 <= i < |ks| ==> r[i] == Entry(ks[i], m[ks[i]])
  {
    seq(|ks|, i requires 0 <= i < |ks| => Entry(ks[i], m[ks[i]]))
  }

  lemma EntriesAtLists<R>(t: Table<R>, p: R -> bool, ks: seq<int>, r: seq<Entry<R>>)
    requires forall x :: x in ks <==> x in Where(t, p)
    requires Increasing(ks)
    requires |r| == |ks|
    requires forall i :: 0 <= i < |ks| ==> ks[i] in t.rows && r[i] == Entry(ks[i], t.rows[ks[i]])
    ensures Lists(r, t, p)
  {
    assert Ids(r) == ks;
    forall i | 0 <= i < |r|
      ensures p(r[i].row)
    {
      assert ks[i] in ks;
    }
  }

  /** `SELECT ... WHERE p` without an ORDER BY, modelled in key order. */
  function Select<R>(t: Table<R>, p: R -> bool): (r: seq<Entry<R>>)
    ensures Lists(r, t, p)
    ensures |r| == |Where(t, p)|
  {
    var ks := Ascending(Where(t, p).Keys);
    assert forall i :: 0 <= i < |ks| ==> ks[i] in t.rows by {
      forall i | 0 <= i < |ks| ensures ks[i] in t.rows {
        assert ks[i] in ks;
      }
    }
    var r := EntriesAt(t.rows, ks);
    EntriesAtLists(t, p, ks, r);
    r
  }

  /** A listing has one entry per selected row. */
  lemma ListsCount<R>(r: seq<Entry<R>>, t: Table<R>, p: R -> bool)
    requires Lists(r, t, p)
    ensures |r| == |Where(t, p)|
  {
    ListsUnique(r, Select(t, p), t, p);
  }

  /** `SELECT ... WHERE p LIMIT 1` without an ORDER BY, modelled as the
      matching row with the lowest key. */
  function First<R>(t: Table<R>, p: R -> bool): (r: Option<Entry<R>>)
    ensures r.None? <==> Where(t, p) == map[]
    ensures r.Some? ==> r.value.id in t.rows && r.value.row == t.rows[r.value.id] && p(r.value.row)
    ensures r.Some? ==> forall k :: k in t.rows && p(t.rows[k]) ==> r.value.id <= k
  {
    var all := Select(t, p);
    if all == [] then
      assert Where(t, p).Keys == {};
      None
    else
      assert Ids(all)[0] == all[0].id;
      Some(all[0])
  }
}

=== FILE: usernames.dfy ===
/** The username rule applied when a profile is created: no whitespace
    character anywhere, and fewer than 33 bytes in UTF-8. The length is a
    byte count (what a Rust `str` reports), not a character count.
 */
module Usernames {

  /** Characters with the Unicode White_Space property. */
  predicate IsWhitespace(c: char) {
    var n := c as int;
    || 0x09 <= n <= 0x0D
    || n == 0x20
    || n == 0x85
    || n == 0xA0
    || n == 0x1680
    || 0x2000 <= n <= 0x200A
    || n == 0x2028
    || n == 0x2029
    || n == 0x202F
    || n == 0x205F
    || n == 0x3000
  }

  /** Number of bytes the UTF-8 encoding of `c` occupies. */
  function Utf8Width(c: char): (w: nat)
    ensures 1 <= w <= 4
    ensures w == 1 <==> (c as int) < 0x80
  {
    var n := c as int;
    if n < 0x80 then 1
    else if n < 0x800 then 2
    else if n < 0x1_0000 then 3
    else 4
  }

  /** Length of the UTF-8 encoding of `s` in bytes. */
  function Utf8Length(s: string): nat
    decreases |s|
  {
    if s == [] then 0 else Utf8Width(s[0]) + Utf8Length(s[1..])
  }

  /** Usernames must stay below this many bytes. */
  const UsernameByteLimit: nat := 33

  /** `is_username_valid`: no whitespace character anywhere, and fewer
      than 33 bytes. Measured in characters, the limit lands between 9 and
      33: an accepted name has at most 32 characters, and every
      whitespace-free name of at most 8 characters is accepted. */
  function IsUsernameValid(username: string): (ok: bool)
    ensures ok ==> |username| < UsernameByteLimit
    ensures ok ==> forall i :: 0 <= i < |username| ==> !IsWhitespace(username[i])
    ensures (forall i :: 0 <= i < |username| ==> !IsWhitespace(username[i])) && 4 * |username| < UsernameByteLimit ==> ok
  {
    Utf8LengthBounds(username);
    && (forall i :: 0 <= i < |username| ==> !IsWhitespace(username[i]))
    && Utf8Length(username) < UsernameByteLimit
  }

  /** Every character takes between one and four bytes. */
  lemma {:induction false} Utf8LengthBounds(s: string)
    ensures |s| <= Utf8Length(s) <= 4 * |s|
    decreases |s|
  {
    if s != [] {
      Utf8LengthBounds(s[1..]);
    }
  }

  /** A string whose characters all take `w` bytes takes `w * |s|` bytes. */
  lemma {:induction false} Utf8LengthUniform(s: string, w: nat)
    requires forall i :: 0 <= i < |s| ==> Utf8Width(s[i]) == w
    ensures Utf8Length(s) == w * |s|
    decreases |s|
  {
    if s != [] {
      Utf8LengthUniform(s[1..], w);
    }
  }

  /** For ASCII text the byte length is the character count. */
  lemma AsciiLength(s: string)
    requires forall i :: 0 <= i < |s| ==> (s[i] as int) < 0x80
    ensures Utf8Length(s) == |s|
  {
    Utf8LengthUniform(s, 1);
  }

  /** An ASCII username is accepted exactly when it has no whitespace and
      fewer than 33 characters. */
  lemma AsciiUsernameRule(username: string)
    requires forall i :: 0 <= i < |username| ==> (username[i] as int) < 0x80
    ensures IsUsernameValid(username) <==>
      (forall i :: 0 <= i < |username| ==> !IsWhitespace(username[i])) && |username| < UsernameByteLimit
  {
    AsciiLength(username);
  }

  /** Seventeen copies of U+00E9 are 17 characters but 34 bytes, so the rule
      rejects them although they would fit a 32-character column. */
  lemma MultibyteUsernameRejected()
    ensures var name := seq(17, _ => 'é'); |name| == 17 && !IsUsernameValid(name)
  {
    var name := seq(17, _ => 'é');
    Utf8LengthUniform(name, 2);
  }
}
